=== FILE: README.md ===
# ios-parallax-pager in Dafny

A model of the iOS parallax pager component. The component is a view with
three parts stacked top to bottom:

- a collapsible header;
- a horizontal strip of tabs;
- the page of the selected tab.

Scrolling the page's content drives the header height. The model covers:

- **The scroll coupling engine.** The step function turns one change of the
  content offset into a new header height constraint constant. The
  feedback guards decide which offset events are dropped: the
  downward-drag artefact filter, the zero-delta filter, and the inset
  tolerance flag. The engine also reports scroll progress to the parallax
  delegate.
- **Both snapshots of the parallax pager view.**
  - The current one is `ParallaxPager`.
  - The earlier one, which the repository still ships, is
    `LegacyParallaxPager`.
  - For each: page layout with its inset and first-show offset rules, the
    header and strip height setters, tab activation with the offset snap
    and completion, swipes, and re-initialisation.
- **The plain pager view without a header** (`PagerView`): its activation
  protocol `willSelect`, `didSelect`, then completion, and its strip height
  setter.
- **The tab strip** (`TabsView`): tab layout, a single selected tab, the
  selection indicator, centring of the selected tab, and the
  selection-change callback with its `(new index, old index)` arguments.

## How the system is modelled

- Geometry (`CGFloat`) is `real`, so the arithmetic is exact.
- Pages are values. `Page.ownsScroll` says whether a page exposes a scroll
  view of its own. Pages that do not are all shown inside the pager's one
  internal scroll view (`ScrollSource.Sources`, `ScrollSource.Get`).
- Key-value observation is replaced by explicit events.
  - `OnOffsetChanged` and `OnInsetChanged` are the observers of the
    observed scroll view.
  - In the program, the pager's own writes to an observed scroll view
    raise these events too. The current snapshot's setters silence them
    with the suppression flag, and a switch re-attaches the observers only
    after its writes. The earlier snapshot's header setter does neither; its
    writes and the events they raise are composed in
    `LegacyParallaxPager.SetHeaderHeightObserved`. When a page without a
    scroll view of its own is displayed, that setter's re-layout clears the
    internal scroll view's inset while it is observed, which switches offset
    events off with nothing to switch them back on
    (`LegacyParallaxPager.InternalObserverSilencesHeader`).
- A force-unwrap of the displayed page when there is none becomes the
  outcome `Trapped`.
- A page switch has two parts:
  - `Begin` is the synchronous part: re-observe, lay out the incoming page,
    snap its offset.
  - `Complete` is the animation completion.
  - `Activate` runs the two atomically.
- Delegate calls are `Common.Note` values, returned in call order.
  - The scroll notification carries the progress numerator and
    denominator.
  - `HeaderStep.Percentage` is their quotient.
- The tab strip callback is called as `(new index, old index)`, which is how
  `TabsView.clickedTab` calls it and how both pager views read it. This
  holds even though the closure type's argument labels say the opposite.

Facts about the step function that are easy to miss:

- **Collapse with a negative minimum.** The collapse regime sets the
  minimum whenever `c - delta <= 0`. For a non-negative minimum this is the
  clamped formulation `max(min, c - delta)`
  (`HeaderStep.StepMatchesClampedForm`). For a negative minimum the two
  differ (`HeaderStep.StepDiffersFromClampedFormForNegativeMinimum`).
- **Pulling down keeps a full header.** With header 300, minimum 84 and
  strip 50, pulling the content from offset 0 to -350 keeps the header at
  300 (`HeaderStep.PullDownScenario`). Scrolling up over the same offsets
  collapses it to 250, 100, 84, 84 (`HeaderStep.ScrollUpScenario`).
- **The percentage is unguarded.** It divides by full minus minimum height
  with no check that they differ.
- **Re-expansion is not capped at full height.** One large pull can carry
  the header past its full height (`HeaderStep.ReexpansionCanPassFullHeight`).

## Model

| member | source | states |
|---|---|---|
| Common.SlideFor | Sources/ParallaxPagerView/ParallaxPagerView.swift:643-656 | the incoming page starts one view width to the right when the new index is greater than the previous one and to the left otherwise, the outgoing page leaves to the opposite side by the same distance, and the incoming page comes to rest at 0 |
| ScrollSource.Get | Sources/ParallaxPagerView/ParallaxPagerView.swift:474-481 | a page without a scroll view of its own is served by the internal scroll view |
| ScrollSource.UpdateTopInset | Sources/ParallaxPagerView/ParallaxPagerView.swift:240-247 | the top inset moves by exactly `delta`; the other insets, the offset and the content size are kept |
| ScrollSource.UpdateTopInsetInverse | Sources/ParallaxPagerView/ParallaxPagerView.swift:661-667 | taking back an inset update restores the scroll view exactly, which is what the switch completion relies on when it removes the expected inset from the outgoing page |
| ScrollSource.ApplyMinimumContentHeight | Sources/ParallaxPagerView/ParallaxPagerView.swift:621-627 | the content height never shrinks, reaches at least the view height minus minimum header and strip, and is either kept or set to exactly that minimum |
| ScrollSource.ApplyMinimumContentHeightIdempotent | Sources/ParallaxPagerView/ParallaxPagerView.swift:621-627 | applying the minimum content height twice is applying it once |
| HeaderStep.NextConstant | Sources/ParallaxPagerView/ParallaxPagerView.swift:432-467 | regime by regime: when collapsing, the result is `c - delta` if that stays positive and above the minimum, else the minimum, so never below the minimum; past the bottom, the header is only raised to the minimum; when fully expanded, it is pinned at full height unless bounce scaling and a larger gap make it follow the gap (both directions); in re-expansion, it grows by the pull exactly when shorter than the gap and a pull down never shrinks it |
| HeaderStep.StepMatchesClampedForm | Sources/ParallaxPagerView/ParallaxPagerView.swift:439-447 | with a non-negative minimum height the step equals, over all inputs, the clamped formulation that writes the collapse regime as `max(min, c - delta)` and the past-the-end regime as `max(c, min)` |
| HeaderStep.StepDiffersFromClampedFormForNegativeMinimum | Sources/ParallaxPagerView/ParallaxPagerView.swift:440-441 | with minimum -10, constant 3 and a move of 8, the code gives -10 where `max(min, c - delta)` gives -5 |
| HeaderStep.ShouldIgnoreOffsetUpdate | Sources/ParallaxPagerView/ParallaxPagerView.swift:369-383 | every event that gets through the filters moves the offset; a pull-down always gets through; without a downward drag only the zero move is dropped; during a downward drag a move up gets through exactly when it ends at an offset that is not positive |
| HeaderStep.ArtefactFilterGuardsHeader | Sources/ParallaxPagerView.swift:330-344 | with the same filters in the earlier snapshot, during a downward drag with the content scrolled into itself, an event that gets through never lowers the header, and every dropped upward move would have collapsed a header above its minimum |
| HeaderStep.Percentage | Sources/ParallaxPagerView/ParallaxPagerView.swift:412-415 | the percentage is 1 at full height and 0 at the minimum, lies in [0, 1] between them, and exceeds 1 exactly when the header is taller than full height |
| HeaderStep.MonotoneCollapse | Sources/ParallaxPagerView/ParallaxPagerView.swift:439-447 | steadily scrolling the content up from at or below the fully expanded position never grows the header and never takes it below the minimum or above where it started |
| HeaderStep.FloorIsSticky | Sources/ParallaxPagerView/ParallaxPagerView.swift:439-447 | once at the minimum, further upward scrolling keeps the header at the minimum |
| HeaderStep.Reexpands | Sources/ParallaxPagerView/ParallaxPagerView.swift:460-463 | below full height and below the exposed gap, pulling the content down grows the header by exactly the pull |
| HeaderStep.ReexpansionCanPassFullHeight | Sources/ParallaxPagerView/ParallaxPagerView.swift:460-463 | header 299 of 300, strip 50, a pull from -100 to -1100 gives a 1299 header without bounce scaling |
| HeaderStep.PullDownScenario | Sources/ParallaxPagerView/ParallaxPagerView.swift:453-459 | with header 300, minimum 84 and strip 50, pulling from 0 through -50, -150, -300, -350 keeps a fully expanded header at 300 |
| HeaderStep.ScrollUpScenario | Sources/ParallaxPagerView/ParallaxPagerView.swift:439-447 | with the same configuration, scrolling up from -350 through -300, -150, -50, 0 collapses the header to 250, 100, 84, 84 |
| TabsView.TabOriginStep | Sources/Tabs/TabsView.swift:131-137 | each tab starts one width and one padding after the previous one |
| TabsView.CreateTabs | Sources/Tabs/TabsView.swift:115-161 | the build itself traps exactly when there are no tabs and the strip is narrowed, since only then does it lay out the indicator; otherwise the strip is laid out and tab `i` starts at the padding plus the widths and paddings of the tabs before it, only tab 0 is selected, the strip reports as many tabs as there are titles and tab 0 as selected, the content width is where a next tab would start, the scroll view is narrowed to the content exactly when the content is narrower and centring is asked for, and only then is the indicator laid out by the build |
| TabsView.TabOriginMonotone | Sources/Tabs/TabsView.swift:131-137 | with non-negative widths and padding, a tab further right never starts further left |
| TabsView.TabsDoNotOverlap | Sources/Tabs/TabsView.swift:131-137 | adjacent tabs are separated by exactly the padding |
| TabsView.UpdateSelectionIndicator | Sources/Tabs/TabsView.swift:167-179 | the indicator spans the selected tab exactly, has the configured height and sits on the strip's bottom edge; nothing else changes |
| TabsView.IndicatorWithinContent | Sources/Tabs/TabsView.swift:117-179 | on a laid-out strip with non-negative widths the indicator starts at least one padding inside the content and ends at least one padding before its end |
| TabsView.CenteringOffset | Sources/Tabs/TabsView.swift:187-190 | the scroll offset is never negative, never past the end of the content, equals the wanted offset when that is in range, and is 0 when the content is narrower than the scroll view |
| TabsView.Click | Sources/Tabs/TabsView.swift:181-196 | tapping the selected tab does nothing; any other tap calls the callback once with (new, old) before the switch, selects and marks only the new tab and moves the indicator under it; the strip scrolls so the tapped tab's centre meets the scroll view's centre when that offset is within the content, stops at the end of the content when it is past it, and at 0 when it is negative; the tab layout is untouched |
| TabsView.ClickKeepsSingleSelected | Sources/Tabs/TabsView.swift:193-195 | every tap keeps exactly one tab marked, the one at the selected index |
| TabsView.SetSelected | Sources/Tabs/TabsView.swift:198-201 | indices outside the strip are ignored; a valid new index is selected with one callback (new, old) |
| TabsView.SetSelectedAndBack | Sources/Tabs/TabsView.swift:181-201 | selecting another tab and then the previously selected one restores the selected index, the marks and the indicator, with callbacks (new, old) and then (old, new) |
| TabsView.NumberOfTabs | Sources/Tabs/TabsView.swift:234-236 | the reported count is the number of tab marks and of tab origins |
| TabsView.CurrentSelectedIndex | Sources/Tabs/TabsView.swift:230-232 | the reported index is exactly the tab carrying the selected mark |
| TabsView.SwipeTarget | Sources/ParallaxPagerView/ParallaxPagerView.swift:688-701 | a swipe targets a tab exactly when it is a left swipe and a next tab exists, or a right swipe and a previous tab exists; the target is that neighbour |
| TabsView.Swipe | Sources/Tabs/TabsView.swift:230-240 | a swipe with no target leaves the strip alone; otherwise the neighbour is selected with one callback (neighbour, current) |
| TabsView.SwipeThereAndBack | Sources/ParallaxPagerView/ParallaxPagerView.swift:688-701 | a left swipe then a right swipe restores the selected index and the marks, with the two callbacks in turn |
| ParallaxPager.OnOffsetChanged | Sources/ParallaxPagerView/ParallaxPagerView.swift:403-421 | an event is dropped, with no state change and no notification, exactly when offset events are silenced or the event is filtered as a zero or artefact move; otherwise only the constant changes, to the step function's value, and one progress notification carries the new progress, the maximum and both offsets |
| ParallaxPager.OnInsetChanged | Sources/ParallaxPagerView/ParallaxPagerView.swift:423-430 | offset events are silenced exactly when the new top inset is 2 or more away from the expected one; nothing else changes |
| ParallaxPager.InsetEchoSilencesOffsets | Sources/ParallaxPagerView/ParallaxPagerView.swift:403-430 | after an inset event, an offset event is dropped exactly when the inset was out of tolerance or the offset event itself is filtered |
| HeaderStep.Replay | Sources/ParallaxPagerView/ParallaxPagerView.swift:403-467 | one constant per offset, each the step function applied to the constant before it over the move from the offset before |
| ParallaxPager.FeedFollowsReplay | Sources/ParallaxPagerView/ParallaxPagerView.swift:403-467 | steady upward scrolling at offsets that are not positive reaches the step function on every event: one notification per event, and the header ends at the replayed constant |
| ParallaxPager.SetHeaderHeight | Sources/ParallaxPagerView/ParallaxPagerView.swift:174-194 | heights at or below the minimum are ignored; otherwise the expected inset moves by the difference; with a displayed page its top inset moves by the difference, header and offset move together so that constant plus offset is preserved, the content height meets the minimum, offset events are live again, and every other surface is unchanged |
| ParallaxPager.SetHeaderHeightRoundTrip | Sources/ParallaxPagerView/ParallaxPagerView.swift:174-194 | setting the header height and setting it back restores header, constant, expected inset and the displayed page's inset and offset |
| ParallaxPager.SetTabsHeight | Sources/ParallaxPagerView/ParallaxPagerView.swift:196-218 | ignored without a strip height constraint or for a negative height; otherwise the expected inset and the displayed page's top inset move by the difference, its offset by the opposite, the header is untouched, the content height meets the minimum for the new strip, and other surfaces are unchanged |
| ParallaxPager.SettersKeepInsetBalance | Sources/ParallaxPagerView/ParallaxPagerView.swift:174-218 | both setters keep expected inset minus header minus strip unchanged |
| ParallaxPager.SetTabsHeightScenario | Sources/ParallaxPagerView/ParallaxPagerView.swift:196-218 | growing the strip from 50 to 100 under a 200 header moves the page's inset down by 50 and its offset up by 50, with the header still at 200 |
| ParallaxPager.LayoutChild | Sources/ParallaxPagerView/ParallaxPagerView.swift:500-601 | the page joins the shown set; the expected inset becomes the larger of constant and full header plus the strip; a page with its own scroll view has that added to its top inset, the internal scroll view gets it as its whole inset; a first show or the internal scroll view starts at the top of the full header, a later show of an own scroll view keeps its offset; content height meets the minimum; other pages' scroll views are unchanged |
| ParallaxPager.LayoutContentViewControllers | Sources/ParallaxPagerView/ParallaxPagerView.swift:249-260 | with pages, the first is laid out, observed and displayed; without, nothing happens |
| ParallaxPager.Init | Sources/ParallaxPagerView/ParallaxPagerView.swift:49-105 | a new view has its header at full height, takes the strip height from the strip if there is one, and displays and observes the first page at the top of the full header |
| ParallaxPager.InitIsSettled | Sources/ParallaxPagerView/ParallaxPagerView.swift:557-568 | after the first layout the first page's top inset is exactly the expected inset, so an inset event reporting it leaves offset events enabled, and the page sits where the exposed gap is the full header |
| ParallaxPager.Begin | Sources/ParallaxPagerView/ParallaxPagerView.swift:641-685 | the incoming page is laid out, shown and observed, slides in from the side given by the indices, and its offset is snapped to the current header, at the left edge, when it lies between the fully expanded position and the top of the strip; apart from that snap the incoming page is exactly as the layout leaves it, and so is every other scroll view |
| ParallaxPager.Complete | Sources/ParallaxPagerView/ParallaxPagerView.swift:661-678 | the incoming page is displayed; an outgoing page with its own scroll view gives back the expected inset; the incoming page's content is made tall enough to collapse the header; no other scroll view changes; the delegate hears didSelect and then the completion handler runs |
| ParallaxPager.Activate | Sources/ParallaxPagerView/ParallaxPagerView.swift:629-686 | out-of-range indices change nothing; re-selecting the displayed page only reports didSelect; a switch without a displayed page traps; any other switch displays, observes and records the page, reports didSelect then completion, slides by the indices, sets the expected inset, and leaves header and feedback flag alone |
| ParallaxPager.ActivateOffsets | Sources/ParallaxPagerView/ParallaxPagerView.swift:566-568 | a page shown for the first time ends the switch at the offset of the current header; a page shown before keeps its offset unless that lies in the snap window |
| ParallaxPager.ShownOnlyGrows | Sources/ParallaxPagerView/ParallaxPagerView.swift:566-567 | a switch never forgets that a page was shown |
| ParallaxPager.OnTabsChanged | Sources/ParallaxPagerView/ParallaxPagerView.swift:310-316 | a strip callback (new, old) activates the new index with the old one as previous and no completion handler; no callback changes nothing |
| ParallaxPager.Swipe | Sources/ParallaxPagerView/ParallaxPagerView.swift:688-701 | a swipe with no neighbouring tab does nothing; otherwise it traps exactly when activating the neighbour from the current index traps, and else the strip ends as its own swipe leaves it, with the neighbour selected, and the pager ends with that activation's state and notifications |
| ParallaxPager.SwipeToNeighbour | Sources/ParallaxPagerView/ParallaxPagerView.swift:688-701 | with strip and pager in step, a swipe with a target displays the target page, keeps them in step and reports one didSelect |
| ParallaxPager.SwipeThereAndBack | Sources/ParallaxPagerView/ParallaxPagerView.swift:688-701 | a left swipe then a right swipe come back to the page displayed before, with the strip's selection and marks restored and didSelect reported for both |
| ParallaxPager.SetupPager | Sources/ParallaxPagerView/ParallaxPagerView.swift:136-156 | an empty page list activates nothing and reports nothing; with no displayed page it traps; when page 0 is already displayed only didSelect(0, -1) is reported and the completion handler does not run; otherwise page 0 is activated as coming from -1, so it slides in from the right, and with a completion handler the delegate hears didSelect(0, -1) and the handler runs |
| ParallaxPager.SetupPagerAgain | Sources/ParallaxPagerView/ParallaxPagerView.swift:136-156 | setting up the same pages and strip again leaves the state exactly as it was and only reports didSelect(0, -1) again |
| LegacyParallaxPager.OnOffsetChanged | Sources/ParallaxPagerView.swift:365-383 | an event is dropped, with no state change and no notification, exactly when offset events are silenced or the event is filtered; otherwise only the constant changes, to the step function's value, and one progress notification carries the new progress, the maximum and both offsets |
| LegacyParallaxPager.OnInsetChanged | Sources/ParallaxPagerView.swift:385-392 | offset events are silenced exactly when the new top inset is 2 or more away from the expected one |
| LegacyParallaxPager.ScrollCouplingMatchesCurrentView | Sources/ParallaxPagerView.swift:365-430 | on states that agree on the header, strip, expected inset and feedback flag, both snapshots send the same notifications for every offset event, reach the same header, and keep agreeing after offset and inset events |
| LegacyParallaxPager.LayoutChild | Sources/ParallaxPagerView.swift:464-585 | the page joins the shown set; the expected inset is the larger of constant and full header plus the strip; the page's scroll view gets that top inset and the visible tab bar's height as bottom inset, replacing its old inset; the internal scroll view is sized to the view; a first show or the internal scroll view starts at the top of the full header, a later show of an own scroll view keeps its offset; other pages are unchanged |
| LegacyParallaxPager.LayoutChildIdempotent | Sources/ParallaxPagerView.swift:535-550 | laying the same page out twice is laying it out once, because the inset is set rather than added |
| LegacyParallaxPager.CurrentViewLayoutAccumulatesInset | Sources/ParallaxPagerView/ParallaxPagerView.swift:558-563 | in the current view a second layout adds the expected inset to an own scroll view again |
| LegacyParallaxPager.LayoutContentViewControllers | Sources/ParallaxPagerView.swift:210-219 | with pages, the first is laid out, observed and displayed and the expected inset is recomputed |
| LegacyParallaxPager.LayoutContentViewControllersIdempotent | Sources/ParallaxPagerView.swift:210-219 | laying out the first page again changes nothing |
| LegacyParallaxPager.Init | Sources/ParallaxPagerView.swift:48-101 | a new view has its header at full height, a zero strip height without a strip, and the first page displayed at the top of the full header with the expected top inset |
| LegacyParallaxPager.InitIsSettled | Sources/ParallaxPagerView.swift:535-554 | after the first layout the first page's top inset is exactly the expected inset whatever it came with, so an inset event reporting it leaves offset events enabled, and the page sits where the exposed gap is the full header |
| LegacyParallaxPager.Relayout | Sources/ParallaxPagerView.swift:173-175 | the setter's re-layout stores the new full height and keeps the constant and the suppression flag |
| LegacyParallaxPager.SetHeaderHeight | Sources/ParallaxPagerView.swift:170-186 | the writes as written: heights at or below the minimum are ignored; otherwise the first page is re-laid out and displayed, the constant is kept, and a first page with its own scroll view that was shown before moves its offset up by the difference while the constant is above the minimum |
| LegacyParallaxPager.ShiftDisplayedPage | Sources/ParallaxPagerView.swift:177-184 | a new height above the minimum becomes the constant and moves a displayed own scroll view up by the difference; otherwise nothing changes |
| LegacyParallaxPager.InsetEchoes | Sources/ParallaxPagerView.swift:385-392 | of the re-layout's two inset writes, at :470 and :545, the observed one decides the flag: the first page's own inset clears it; the internal scroll view's cleared inset alone sets it exactly when the old expected inset is 2 or more from zero; with neither observed the flag is kept |
| LegacyParallaxPager.WithEchoes | Sources/ParallaxPagerView.swift:175-184 | after the setter's writes the flag is the one the re-layout's inset events leave; with the observer already on the first page's own scroll view the offset event of the final write is either filtered or applies the step function to the written constant; only the constant and the flag differ from the writes |
| LegacyParallaxPager.SetHeaderHeightObserved | Sources/ParallaxPagerView.swift:170-186 | as the program runs it: ignored at or below the minimum; otherwise the writes as written followed by the events they raise, which change only the constant and the suppression flag |
| LegacyParallaxPager.InternalObserverSilencesHeader | Sources/ParallaxPagerView.swift:170-219 | with the internal scroll view observed, an expected inset 2 or more from zero and a first page with its own scroll view, the setter ends with offset events off, no notification and the constant unchanged, and the next offset event is dropped too |
| LegacyParallaxPager.InternalObserverExample | Sources/ParallaxPagerView.swift:170-219 | header 300 at full height with the second page displayed and without its own scroll view; asking for 400 leaves the constant at 300, displays the first page and switches offset events off |
| LegacyParallaxPager.SetHeaderHeightParenthesesOnly | Sources/ParallaxPagerView.swift:176 | the setter with only the parentheses corrected ignores heights at or below the minimum; its offset write stays unsilenced |
| LegacyParallaxPager.SetHeaderHeightIntended | Sources/ParallaxPagerView/ParallaxPagerView.swift:174-194 | corrected as the current view has it: the constant grows by the difference when that stays above the minimum and is kept otherwise, the offset write is silenced, and offset events are live afterwards |
| LegacyParallaxPager.IntendedKeepsContentInPlace | Sources/ParallaxPagerView.swift:170-186 | with the correction, constant plus first-page offset is preserved, so the content does not jump relative to the header |
| LegacyParallaxPager.AsWrittenMovesContent | Sources/ParallaxPagerView.swift:176 | as the program runs it, growing the header while the first page is scrolled into its content keeps the constant, moves the offset by the difference, and so moves constant plus offset by the difference, whatever the drag direction |
| LegacyParallaxPager.AsWrittenExample | Sources/ParallaxPagerView.swift:176 | header 300 with the constant at 100 (minimum 84, strip 50), page at +500, new height 400: the program keeps the header at 100 and scrolls to 400; the correction gives 200 and 400 |
| LegacyParallaxPager.EventHidesDefectWhenPulledDown | Sources/ParallaxPagerView.swift:176-184 | header 300 at full height, page at -350 and observed, new height 400: the writes keep 300 and scroll to -450, and the raised event re-expands the header to 400, as the correction has it |
| LegacyParallaxPager.EventRepairsPulledDownPage | Sources/ParallaxPagerView.swift:176-184 | when the header grows while the observed page is pulled down past the header, the program ends with the same constant and offset as the correction |
| LegacyParallaxPager.ParenthesesOnlyCountsTwice | Sources/ParallaxPagerView.swift:176-184 | header 300 with the constant at 200, page at -250 and observed, new height 250: the program ends at 150, the parentheses-only setter at 100 because its unsilenced event applies the difference again, and the correction at 150 |
| LegacyParallaxPager.IntendedMatchesCurrentView | Sources/ParallaxPagerView/ParallaxPagerView.swift:177-189 | with a displayed page, the corrected setter leaves the same header height, constant and suppression flag as the current view's setter |
| LegacyParallaxPager.Begin | Sources/ParallaxPagerView.swift:596-634 | the incoming page is laid out, shown and observed, slides in from the side given by the indices, and its offset is snapped to the current header only when the header is not at full height and the offset lies in the snap window; apart from that snap the incoming page is exactly as the layout leaves it, with the expected inset, and so is every other scroll view |
| LegacyParallaxPager.Complete | Sources/ParallaxPagerView.swift:616-625 | the incoming page is displayed, no scroll view changes, and the delegate hears didSelect before the completion handler runs |
| LegacyParallaxPager.Activate | Sources/ParallaxPagerView.swift:587-635 | out-of-range indices and re-selecting the displayed page change nothing and report nothing; a switch without a displayed page traps; any other switch displays, observes and records the page, reports didSelect then completion, and gives it the expected top inset |
| LegacyParallaxPager.FirstShowMatchesHeader | Sources/ParallaxPagerView.swift:552-555 | a page shown for the first time ends the switch at the offset of the current header, with or without the snap |
| LegacyParallaxPager.ReselectIsSilent | Sources/ParallaxPagerView.swift:594 | re-selecting the displayed page reports nothing here, where the current view reports didSelect |
| LegacyParallaxPager.OnTabsChanged | Sources/ParallaxPagerView.swift:272-275 | a strip callback (new, old) activates the new index with the old one as previous and no completion handler; a trap propagates |
| LegacyParallaxPager.Swipe | Sources/ParallaxPagerView.swift:637-650 | a swipe with no neighbouring tab does nothing; otherwise it traps exactly when activating the neighbour traps, and else the strip ends as its own swipe leaves it, with the neighbour selected, and the pager ends with that activation's state and notifications |
| LegacyParallaxPager.SwipeThereAndBack | Sources/ParallaxPagerView.swift:637-650 | with distinct neighbouring pages, a left swipe then a right swipe come back to the page displayed before, with the strip's selection and marks restored and didSelect reported for both |
| LegacyParallaxPager.SetupPager | Sources/ParallaxPagerView.swift:131-152 | page 0 is activated from -1 with the new strip height; with no displayed page it traps; when page 0 is already displayed nothing is reported and the completion handler does not run |
| LegacyParallaxPager.SetupPagerAgain | Sources/ParallaxPagerView.swift:131-152 | setting up the same pages and strip again leaves the state exactly as it was and reports nothing |
| PagerView.LayoutChild | Sources/ParallaxPagerView/PagerViewController.swift:300-309 | the page joins the shown set, which gains nothing else; nothing else changes |
| PagerView.LayoutContentViewControllers | Sources/ParallaxPagerView/PagerViewController.swift:134-141 | with pages, the first is laid out and displayed; without, nothing happens |
| PagerView.Init | Sources/ParallaxPagerView/PagerViewController.swift:32-59 | the initialiser without a strip takes exactly one page; the strip height and the strip height constraint come from the strip if there is one, and the first page is displayed |
| PagerView.SetTabsHeight | Sources/ParallaxPagerView/PagerViewController.swift:118-126 | ignored without a constraint or for a negative height, otherwise the strip height becomes the new one; nothing else changes |
| PagerView.SetTabsHeightLastWins | Sources/ParallaxPagerView/PagerViewController.swift:118-126 | of two strip height changes the later one wins when it is valid, and an invalid later one leaves the earlier in place |
| PagerView.LayoutContentViewControllersIdempotent | Sources/ParallaxPagerView/PagerViewController.swift:134-141 | laying out the first page again changes nothing |
| PagerView.Activate | Sources/ParallaxPagerView/PagerViewController.swift:312-360 | out-of-range indices report nothing; otherwise willSelect comes first and didSelect second; re-selecting the displayed page reports exactly those two; a switch without a displayed page traps; any other switch displays and records the page, slides by the indices, and reports completion last |
| PagerView.ActivateDisplaysRequested | Sources/ParallaxPagerView/PagerViewController.swift:312-360 | with a page displayed, every valid activation completes with the requested page displayed and recorded as shown, and forgets no page |
| PagerView.OnTabsChanged | Sources/ParallaxPagerView/PagerViewController.swift:145-148 | a strip callback (new, old) activates the new index with the old one as previous and no completion handler |
| PagerView.Swipe | Sources/ParallaxPagerView/PagerViewController.swift:362-375 | a swipe with no neighbouring tab does nothing; otherwise it traps exactly when activating the neighbour traps, and else the strip ends as its own swipe leaves it and the pager follows with willSelect and didSelect |
| PagerView.SwipeThereAndBack | Sources/ParallaxPagerView/PagerViewController.swift:362-375 | a left swipe then a right swipe come back to the page displayed before, with the strip's selection and marks restored and willSelect, didSelect reported for each |
| PagerView.SetupPager | Sources/ParallaxPagerView/PagerViewController.swift:80-100 | the strip height is taken over and a strip height constraint now exists; page 0 is activated from -1, reporting willSelect and didSelect even when it is already displayed; with no displayed page it traps |
| PagerView.SetupPagerAgain | Sources/ParallaxPagerView/PagerViewController.swift:80-100 | setting up the same pages and strip again leaves the state exactly as it was and reports willSelect(0, -1) and didSelect(0, -1) again |

## Left out

- Auto Layout constraints and animation are left out. Positions, alpha fades and animation durations are layout, not state. The `animated` flags of the page switches and of the current view's setters only choose a duration.
- Key-value observation wiring is left out. Offset and inset changes are explicit events, so the suppression writes around the current view's setters appear only as their end value.
- LegacyParallaxPager.SetHeaderHeightObserved: models the call with `animated: false`. An animated call writes the offset through `setContentOffset(_:animated:)`, whose intermediate offsets each reach the step function; these are not modelled. It feeds back the events of the re-layout's two inset writes and of the final offset write only. The re-layout's own offset writes for a first show or for the internal scroll view are not fed back. The lemmas about it assume a first page with its own scroll view that was shown before, which the re-layout does not scroll.
- The indicator update that UIKit's layout passes run (Sources/Tabs/TabsView.swift:163-165) is not modelled. On a strip with no tabs such a pass traps, whether or not the build did.
- UIKit's own adjustment of the offset when an inset changes is left out. `updateTopInset` restores the offset for own scroll views, and the model keeps it for every scroll view.
- The pan gesture's translation is not modelled. It enters only as the `movingDown` parameter.
- Swipe recognisers and gesture priorities are left out. So are `gestureRecognizerShouldBegin` and `shouldReceiveHeaderGestures`, which are gesture plumbing.
- Nib and bundle loading, and the fonts, colours and titles of `TabsConfig`, are left out. A tab is its width.
- The strip's header view (`addHeader`, `removeHeader`) is left out. It is styling above the tabs and touches no modelled state.
- The header view being absent (a nil height constraint) is not modelled. Every initialiser creates the constraint.
- Console logging of invalid selection indices is left out.
- View controller containment calls are left out. Which page is displayed is modelled; their parent/child bookkeeping is not.
- Overlapping switches are not modelled, meaning a second activation before the first animation completes. `Activate` runs the completion at once.
- HeaderStep.Percentage: requires the full and minimum heights to differ. The source divides without a guard, and the floating-point infinity or NaN it then produces is not modelled.

## Findings

| source | as written | input that shows it | evidently intended | confidence | as-written member | corrected member |
|---|---|---|---|---|---|---|
| Sources/ParallaxPagerView.swift:176 | `headerHeightConstraint?.constant ?? 0 + heightDiff` reads as `constant ?? (0 + heightDiff)`, because `+` binds tighter than `??`. The setter keeps the header's height while it moves the page's offset by the difference, and it does not silence that offset write. The event of the write repairs the header only when the page is pulled down past the header. | Header 300 with its constant at 100 (minimum 84, strip 50), a first page scrolled 500 into its content, then `setHeaderHeight(400)`. The header stays at 100 while the content scrolls to 400, so the content jumps 100 relative to the header. | `(constant ?? 0) + heightDiff` together with silencing the offset write, as the later snapshot does at Sources/ParallaxPagerView/ParallaxPagerView.swift:180-193. Correcting only the parentheses applies the difference twice once the event arrives. Header and offset move together. | medium; not executed | LegacyParallaxPager.SetHeaderHeightObserved, LegacyParallaxPager.AsWrittenMovesContent, LegacyParallaxPager.AsWrittenExample, LegacyParallaxPager.ParenthesesOnlyCountsTwice | LegacyParallaxPager.SetHeaderHeightIntended, LegacyParallaxPager.IntendedKeepsContentInPlace |

=== FILE: common.dfy ===
/** Vocabulary shared by the pager views: optional values, the outcome of an
    operation that force-unwraps an optional, real min/max/abs, swipe
    directions, slide geometry and the notifications sent to delegates. */
module Common {

  /** An optional value, the model of a Swift optional. */
  datatype Option<+T> = None | Some(value: T)

  /** `o ?? default` */
  function OrElse<T>(o: Option<T>, default: T): (r: T)
    ensures o.Some? ==> r == o.value
    ensures o.None? ==> r == default
  {
    match o
    case Some(v) => v
    case None => default
  }

  /** The result of an operation that force-unwraps an optional: `Trapped`
      stands for the runtime trap raised when that optional is nil. */
  datatype Outcome<+T> = Done(value: T) | Trapped

  function Max(a: real, b: real): real { if a >= b then a else b }

  function Min(a: real, b: real): real { if a <= b then a else b }

  function Abs(x: real): real { if x < 0.0 then -x else x }

  /** What the pager views tell the hosting application, in order. */
  datatype Note =
    | DidScroll(progress: real, maximum: real, oldY: real, newY: real)
    | WillSelect(index: int, previous: int)
    | DidSelect(index: int, previous: int)
    | Completed

  /** Direction reported by a swipe recogniser. */
  datatype SwipeDirection = Left | Right | Up | Down

  /** Horizontal constraint constants of a page switch: where the incoming
      page starts, where the outgoing page ends and where the incoming page
      comes to rest. */
  datatype Slide = Slide(incomingStart: real, outgoingEnd: real, incomingEnd: real)

  /** Slide geometry of switching from page `previous` to page `index` in a
      container `width` wide: a page further right enters from the right. */
  function SlideFor(index: int, previous: int, width: real): (r: Slide)
    ensures index > previous ==> r.incomingStart == width
    ensures index <= previous ==> r.incomingStart == -width
    ensures r.outgoingEnd + r.incomingStart == 0.0
    ensures r.incomingEnd == 0.0
  {
    var start := if index > previous then width else -width;
    Slide(start, -start, 0.0)
  }
}

=== FILE: header_step.dfy ===
/** The scroll coupling engine: how one change of the content offset turns
    into a new header height, which offset events are dropped as feedback,
    and the scroll progress reported to the hosting application.

    Naming: `c` is the current header height constant, `H` the full header
    height, `min` the minimum header height, `T` the tab strip height, and
    `delta` the change of the vertical offset (new y minus old y). */
module HeaderStep {
  import opened Common

  /** The header-related configuration the step function reads. */
  datatype Config = Config(fullHeight: real, minimumHeight: real, tabsHeight: real, scaleOnBounce: bool)

  /** Content moves up while the offset is at or below the top of the
      header and strip: the header collapses. */
  predicate Collapsing(cfg: Config, oldY: real, newY: real)
  {
    newY - oldY > 0.0 && newY >= -(cfg.fullHeight + cfg.tabsHeight)
  }

  /** The part of the area above the content that the offset exposes,
      measured below the tab strip. */
  function Gap(cfg: Config, newY: real): real
  {
    -(newY + cfg.tabsHeight)
  }

  /** New header height constant after the offset moves from `oldY` to
      `newY`, following the branch structure of the source. */
  function NextConstant(cfg: Config, c: real, oldY: real, newY: real): (r: real)
    // collapse regime: never below the minimum; follows the content up
    // as long as that keeps the header positive and above the minimum
    ensures Collapsing(cfg, oldY, newY) ==> r >= cfg.minimumHeight
    ensures Collapsing(cfg, oldY, newY) ==>
              r == (if c - (newY - oldY) > 0.0 && c - (newY - oldY) > cfg.minimumHeight
                    then c - (newY - oldY) else cfg.minimumHeight)
    // rubber band past the bottom: only raised to the minimum, never lowered
    ensures !Collapsing(cfg, oldY, newY) && newY > 0.0 ==> r >= c && r >= cfg.minimumHeight
    ensures !Collapsing(cfg, oldY, newY) && newY > 0.0 && c > cfg.minimumHeight ==> r == c
    ensures !Collapsing(cfg, oldY, newY) && newY > 0.0 && c <= cfg.minimumHeight ==> r == cfg.minimumHeight
    // fully expanded: pinned at full height, or follows the bounce if scaling
    ensures !Collapsing(cfg, oldY, newY) && newY <= 0.0 && c >= cfg.fullHeight ==>
              r >= cfg.fullHeight
    ensures !Collapsing(cfg, oldY, newY) && newY <= 0.0 && c >= cfg.fullHeight ==>
              (r == cfg.fullHeight <==> !(cfg.scaleOnBounce && Gap(cfg, newY) > cfg.fullHeight))
    ensures !Collapsing(cfg, oldY, newY) && newY <= 0.0 && c >= cfg.fullHeight && r != cfg.fullHeight ==>
              r == Gap(cfg, newY)
    // re-expansion: grows with the pull only while shorter than the gap
    ensures !Collapsing(cfg, oldY, newY) && newY <= 0.0 && c < cfg.fullHeight ==>
              (if c < Gap(cfg, newY) then r == c - (newY - oldY) else r == c)
    ensures !Collapsing(cfg, oldY, newY) && newY <= 0.0 && c < cfg.fullHeight && newY - oldY <= 0.0 ==>
              r >= c
  {
    var delta := newY - oldY;
    var offsetWithStrip := newY + cfg.tabsHeight;
    if delta > 0.0 && newY >= -(cfg.fullHeight + cfg.tabsHeight) then
      var lowered := if c - delta <= 0.0 then cfg.minimumHeight else c - delta;
      if lowered <= cfg.minimumHeight then cfg.minimumHeight else lowered
    else if newY > 0.0 then
      if c <= cfg.minimumHeight then cfg.minimumHeight else c
    else if c >= cfg.fullHeight then
      if -offsetWithStrip > cfg.fullHeight && cfg.scaleOnBounce then -offsetWithStrip else cfg.fullHeight
    else if c < -offsetWithStrip then c - delta
    else c
  }

  /** The clamped formulation of the step: the same regimes, with the
      collapse regime written as `max(min, c - delta)`. */
  function ClampedStep(cfg: Config, c: real, oldY: real, newY: real): real
  {
    var delta := newY - oldY;
    var offsetWithStrip := newY + cfg.tabsHeight;
    if delta > 0.0 && newY >= -(cfg.fullHeight + cfg.tabsHeight) then Max(cfg.minimumHeight, c - delta)
    else if newY > 0.0 then Max(c, cfg.minimumHeight)
    else if c >= cfg.fullHeight then
      (if -offsetWithStrip > cfg.fullHeight && cfg.scaleOnBounce then -offsetWithStrip else cfg.fullHeight)
    else if c < -offsetWithStrip then c - delta
    else c
  }

  /** With a non-negative minimum height the step is exactly the clamped
      formulation. */
  lemma StepMatchesClampedForm(cfg: Config, c: real, oldY: real, newY: real)
    requires cfg.minimumHeight >= 0.0
    ensures NextConstant(cfg, c, oldY, newY) == ClampedStep(cfg, c, oldY, newY)
  {
  }

  /** With a negative minimum height they part: the step snaps to the
      minimum as soon as `c - delta` is not positive. */
  lemma StepDiffersFromClampedFormForNegativeMinimum()
    ensures var cfg := Config(300.0, -10.0, 50.0, false);
            NextConstant(cfg, 3.0, 0.0, 8.0) == -10.0 && ClampedStep(cfg, 3.0, 0.0, 8.0) == -5.0
  {
  }

  /** True when offset `y` lies between the fully expanded position and the
      top of the strip: the window in which a page being switched to is
      snapped to the current header height. */
  predicate InSnapWindow(cfg: Config, y: real)
  {
    -(cfg.tabsHeight + cfg.fullHeight) <= y <= -cfg.tabsHeight
  }

  /** The downward-drag artefact filter and the zero-delta filter: events
      for which this holds are dropped before the step function runs. */
  function ShouldIgnoreOffsetUpdate(movingDown: bool, oldY: real, newY: real): (r: bool)
    // every event that gets through moves the offset
    ensures !r ==> newY != oldY
    // while the finger drags down, no event that gets through moves content
    // that is scrolled into itself further up
    ensures !r && movingDown && newY > 0.0 ==> newY < oldY
    // pulling the content down is never filtered
    ensures newY < oldY ==> !r
    // without a downward drag only the zero move is dropped
    ensures !movingDown ==> (r <==> newY == oldY)
    // during a downward drag, a move up gets through only at offsets that
    // are not positive
    ensures movingDown && newY > oldY ==> (r <==> newY > 0.0)
  {
    var delta := newY - oldY;
    delta == 0.0 || (movingDown && delta > 0.0 && newY > 0.0)
  }

  /** What the artefact filter protects: during a downward drag with the
      content scrolled into itself, an event that gets through never lowers
      the header, while each dropped event that moves the content up would
      have collapsed a header above its minimum. */
  lemma ArtefactFilterGuardsHeader(cfg: Config, c: real, movingDown: bool, oldY: real, newY: real)
    requires movingDown && newY > 0.0
    requires cfg.fullHeight + cfg.tabsHeight >= 0.0
    ensures !ShouldIgnoreOffsetUpdate(movingDown, oldY, newY) ==> NextConstant(cfg, c, oldY, newY) >= c
    ensures newY > oldY && c > cfg.minimumHeight ==>
              ShouldIgnoreOffsetUpdate(movingDown, oldY, newY) && NextConstant(cfg, c, oldY, newY) < c
  {
  }

  /** Top insets within this distance of the expected one count as settled. */
  const InsetTolerance: real := 2.0

  /** An inset event with top inset `top` silences offset events. */
  predicate InsetSuppressesOffsets(top: real, originalTopInset: real)
  {
    !(Abs(top - originalTopInset) < InsetTolerance)
  }

  /** Scroll progress reported to the delegate: the numerator and the
      denominator of the percentage. */
  function Progress(cfg: Config, c: real): real { c - cfg.minimumHeight }

  function MaximumProgress(cfg: Config): real { cfg.fullHeight - cfg.minimumHeight }

  /** The percentage the delegate receives. The source divides without a
      guard; the quotient is only defined when full and minimum differ. */
  function Percentage(cfg: Config, c: real): (p: real)
    requires MaximumProgress(cfg) != 0.0
    ensures c == cfg.fullHeight ==> p == 1.0
    ensures c == cfg.minimumHeight ==> p == 0.0
    ensures cfg.fullHeight > cfg.minimumHeight && cfg.minimumHeight <= c <= cfg.fullHeight ==> 0.0 <= p <= 1.0
    ensures cfg.fullHeight > cfg.minimumHeight ==> (p > 1.0 <==> c > cfg.fullHeight)
  {
    var p := Progress(cfg, c) / MaximumProgress(cfg);
    assert Progress(cfg, c) == p * MaximumProgress(cfg);
    p
  }

  /** Header constants after each offset of `ys`, starting from constant `c`
      at offset `y0`, when every event reaches the step function. */
  function Replay(cfg: Config, c: real, y0: real, ys: seq<real>): (cs: seq<real>)
    ensures |cs| == |ys|
    // each constant is the step from the one before it, over the move from
    // the offset before to its own offset
    ensures |ys| > 0 ==> cs[0] == NextConstant(cfg, c, y0, ys[0])
    ensures forall i :: 0 < i < |ys| ==> cs[i] == NextConstant(cfg, cs[i - 1], ys[i - 1], ys[i])
    decreases |ys|
  {
    if ys == [] then []
    else
      var c1 := NextConstant(cfg, c, y0, ys[0]);
      [c1] + Replay(cfg, c1, ys[0], ys[1..])
  }

  /** Each offset of `ys` is strictly above the one before it (`y0` first). */
  predicate Rising(y0: real, ys: seq<real>)
    decreases |ys|
  {
    ys == [] || (y0 < ys[0] && Rising(ys[0], ys[1..]))
  }

  /** No offset of `ys` is above the fully expanded position `-(H + T)`, so
      every upward move among them is in the collapse regime. */
  predicate WithinHeader(cfg: Config, ys: seq<real>)
  {
    forall i :: 0 <= i < |ys| ==> ys[i] >= -(cfg.fullHeight + cfg.tabsHeight)
  }

  /** Every constant of `cs` lies in `[lo, hi]`. */
  predicate Between(cs: seq<real>, lo: real, hi: real)
  {
    forall i :: 0 <= i < |cs| ==> lo <= cs[i] <= hi
  }

  /** No constant of `cs` exceeds the one before it. */
  predicate NonIncreasing(cs: seq<real>)
  {
    forall i :: 0 < i < |cs| ==> cs[i] <= cs[i - 1]
  }

  /** Monotone collapse: scrolling the content up steadily never grows the
      header and never takes it below the minimum. */
  lemma {:induction false} MonotoneCollapse(cfg: Config, c: real, y0: real, ys: seq<real>)
    requires c >= cfg.minimumHeight
    requires Rising(y0, ys)
    requires WithinHeader(cfg, ys)
    ensures Between(Replay(cfg, c, y0, ys), cfg.minimumHeight, c)
    ensures NonIncreasing(Replay(cfg, c, y0, ys))
    decreases |ys|
  {
    if ys != [] {
      var c1 := NextConstant(cfg, c, y0, ys[0]);
      assert Collapsing(cfg, y0, ys[0]);
      assert cfg.minimumHeight <= c1 <= c;
      assert WithinHeader(cfg, ys[1..]) by {
        forall i | 0 <= i < |ys[1..]| ensures ys[1..][i] >= -(cfg.fullHeight + cfg.tabsHeight) {
          assert ys[1..][i] == ys[i + 1];
        }
      }
      MonotoneCollapse(cfg, c1, ys[0], ys[1..]);
      var rest := Replay(cfg, c1, ys[0], ys[1..]);
      var cs := Replay(cfg, c, y0, ys);
      assert cs == [c1] + rest;
      forall i | 0 < i < |cs|
        ensures cfg.minimumHeight <= cs[i] <= c
        ensures cs[i] <= cs[i - 1]
      {
        assert cs[i] == rest[i - 1];
        if i > 1 {
          assert cs[i - 1] == rest[i - 2];
        }
      }
    }
  }

  /** Once collapsed to the minimum, further upward scrolling keeps the
      header pinned there. */
  lemma FloorIsSticky(cfg: Config, y0: real, ys: seq<real>)
    requires Rising(y0, ys)
    requires WithinHeader(cfg, ys)
    ensures forall i :: 0 <= i < |ys| ==> Replay(cfg, cfg.minimumHeight, y0, ys)[i] == cfg.minimumHeight
  {
    MonotoneCollapse(cfg, cfg.minimumHeight, y0, ys);
  }

  /** Re-expansion: while the header is shorter than both the full height
      and the exposed gap, pulling the content down grows it by exactly the
      pull. */
  lemma Reexpands(cfg: Config, c: real, oldY: real, newY: real)
    requires newY < oldY && newY <= 0.0
    requires c < cfg.fullHeight && c < Gap(cfg, newY)
    ensures NextConstant(cfg, c, oldY, newY) == c + (oldY - newY)
    ensures NextConstant(cfg, c, oldY, newY) > c
  {
  }

  /** The re-expansion branch has no cap: a single large pull can carry the
      header past its full height even without bounce scaling. */
  lemma ReexpansionCanPassFullHeight()
    ensures NextConstant(Config(300.0, 84.0, 50.0, false), 299.0, -100.0, -1100.0) == 1299.0
  {
  }

  /** An example configuration: header 300, minimum 84, strip 50. */
  const Example := Config(300.0, 84.0, 50.0, false)

  /** Pulling the content down from offset 0 through -50, -150, -300 and
      -350 keeps a fully expanded header at 300. */
  lemma PullDownScenario()
    ensures Replay(Example, 300.0, 0.0, [-50.0, -150.0, -300.0, -350.0]) == [300.0, 300.0, 300.0, 300.0]
  {
    var ys := [-50.0, -150.0, -300.0, -350.0];
    assert ys[1..] == [-150.0, -300.0, -350.0];
    assert ys[1..][1..] == [-300.0, -350.0];
    assert ys[1..][1..][1..] == [-350.0];
  }

  /** Scrolling up through the same offsets in reverse collapses the header
      300 -> 250 -> 100 -> 84 -> 84. */
  lemma ScrollUpScenario()
    ensures Replay(Example, 300.0, -350.0, [-300.0, -150.0, -50.0, 0.0]) == [250.0, 100.0, 84.0, 84.0]
  {
    var ys := [-300.0, -150.0, -50.0, 0.0];
    assert ys[1..] == [-150.0, -50.0, 0.0];
    assert ys[1..][1..] == [-50.0, 0.0];
    assert ys[1..][1..][1..] == [0.0];
  }
}

=== FILE: legacy_parallax_pager.dfy ===
/** The earlier snapshot of the parallax pager view, kept beside the current
    one in Sources/ParallaxPagerView.swift. It shares the step function and
    the feedback guards with the current view, but differs in three places:
    a page's top inset is set outright rather than accumulated, re-selecting
    the displayed page is silent, and changing the header height goes
    through a full re-layout of the first page.

    As in the current view, offset and inset changes arrive as explicit
    events. */
module LegacyParallaxPager {
  import opened Common
  import opened ScrollSource
  import HeaderStep
  import TabsView
  import ParallaxPager

  /** The tab bar of the tab bar controller hosting the pager. */
  datatype TabBar = TabBar(hidden: bool, height: real)

  /** Bottom inset given to the page's scroll view: the height of a visible
      tab bar, nothing otherwise. */
  function BottomInset(bar: Option<TabBar>): real
  {
    if bar.Some? && !bar.value.hidden then bar.value.height else 0.0
  }

  datatype Pager = Pager(
    headerHeight: real,
    minimumHeaderHeight: real,
    scaleOnBounce: bool,
    tabsHeight: real,
    constant: real,              // current header height constraint constant
    originalTopInset: real,
    ignoreOffsetChanged: bool,
    pages: seq<Page>,
    current: Option<Page>,
    shown: set<Page>,
    sources: Sources,
    observing: Option<Page>,
    boundsWidth: real,
    boundsHeight: real,
    tabBar: Option<TabBar>)      // the hosting tab bar, if there is one

  function Cfg(s: Pager): HeaderStep.Config
  {
    HeaderStep.Config(s.headerHeight, s.minimumHeaderHeight, s.tabsHeight, s.scaleOnBounce)
  }

  datatype Reaction = Reaction(state: Pager, notes: seq<Note>)

  /** An observed offset change; absent offsets count as zero. */
  function OnOffsetChanged(s: Pager, movingDown: bool, oldOffset: Option<real>, newOffset: Option<real>): (r: Reaction)
    ensures var o := OrElse(oldOffset, 0.0); var n := OrElse(newOffset, 0.0);
            r.notes == [] <==> s.ignoreOffsetChanged || HeaderStep.ShouldIgnoreOffsetUpdate(movingDown, o, n)
    ensures r.notes == [] ==> r.state == s
    ensures r.state == s.(constant := r.state.constant)
    ensures var o := OrElse(oldOffset, 0.0); var n := OrElse(newOffset, 0.0);
            r.notes != [] ==>
              && r.state.constant == HeaderStep.NextConstant(Cfg(s), s.constant, o, n)
              && r.notes == [DidScroll(HeaderStep.Progress(Cfg(s), r.state.constant), HeaderStep.MaximumProgress(Cfg(s)), o, n)]
  {
    var o := OrElse(oldOffset, 0.0);
    var n := OrElse(newOffset, 0.0);
    if s.ignoreOffsetChanged || HeaderStep.ShouldIgnoreOffsetUpdate(movingDown, o, n) then Reaction(s, [])
    else
      var c := HeaderStep.NextConstant(Cfg(s), s.constant, o, n);
      Reaction(s.(constant := c), [DidScroll(c - s.minimumHeaderHeight, s.headerHeight - s.minimumHeaderHeight, o, n)])
  }

  /** An observed inset change: offset events are silenced while the top
      inset is 2 or more away from the expected one. */
  function OnInsetChanged(s: Pager, inset: Option<Insets>): (r: Pager)
    ensures r.ignoreOffsetChanged <==> Abs(OrElse(inset, ZeroInsets).top - s.originalTopInset) >= 2.0
    ensures r == s.(ignoreOffsetChanged := r.ignoreOffsetChanged)
  {
    s.(ignoreOffsetChanged := HeaderStep.InsetSuppressesOffsets(OrElse(inset, ZeroInsets).top, s.originalTopInset))
  }

  /** A state of the current view and one of this view that agree on
      everything the scroll coupling reads or writes. */
  predicate Corresponds(a: ParallaxPager.Pager, b: Pager)
  {
    && a.headerHeight == b.headerHeight && a.minimumHeaderHeight == b.minimumHeaderHeight
    && a.scaleOnBounce == b.scaleOnBounce && a.tabsHeight == b.tabsHeight
    && a.constant == b.constant && a.originalTopInset == b.originalTopInset
    && a.ignoreOffsetChanged == b.ignoreOffsetChanged
  }

  /** Both snapshots react to every offset and inset event alike: the same
      notifications, the same header, and they keep agreeing afterwards. */
  lemma ScrollCouplingMatchesCurrentView(a: ParallaxPager.Pager, b: Pager, movingDown: bool,
                                         oldOffset: Option<real>, newOffset: Option<real>, inset: Option<Insets>)
    requires Corresponds(a, b)
    ensures var ra := ParallaxPager.OnOffsetChanged(a, movingDown, oldOffset, newOffset);
            var rb := OnOffsetChanged(b, movingDown, oldOffset, newOffset);
            ra.notes == rb.notes && Corresponds(ra.state, rb.state)
    ensures Corresponds(ParallaxPager.OnInsetChanged(a, inset), OnInsetChanged(b, inset))
  {
  }

  /** Puts `page` into the view hierarchy. The internal scroll view loses its
      inset and is sized to the view; the page's scroll view gets the
      expected top inset and the tab bar's bottom inset, replacing whatever
      it had; the first time the page is shown it is scrolled to the top of
      the full header. */
  function LayoutChild(s: Pager, page: Page): (r: Pager)
    ensures r.shown == s.shown + {page}
    ensures r.originalTopInset == Max(s.constant, s.headerHeight) + s.tabsHeight
    ensures Get(r.sources, page).inset == Insets(r.originalTopInset, 0.0, BottomInset(s.tabBar), 0.0)
    ensures page.ownsScroll ==> r.sources.internal.inset == ZeroInsets
    ensures r.sources.internal.contentWidth == s.boundsWidth && r.sources.internal.contentHeight == s.boundsHeight
    ensures page.ownsScroll ==> Get(r.sources, page).contentHeight == Get(s.sources, page).contentHeight
    ensures page !in s.shown || !page.ownsScroll ==>
              Get(r.sources, page).offsetX == 0.0 && Get(r.sources, page).offsetY == -s.headerHeight - s.tabsHeight
    ensures page in s.shown && page.ownsScroll ==>
              Get(r.sources, page).offsetX == Get(s.sources, page).offsetX &&
              Get(r.sources, page).offsetY == Get(s.sources, page).offsetY
    ensures forall q: Page :: q.ownsScroll && q != page ==> Get(r.sources, q) == Get(s.sources, q)
    ensures r == s.(originalTopInset := r.originalTopInset, sources := r.sources, shown := r.shown)
  {
    var internal := s.sources.internal.(inset := ZeroInsets, contentWidth := s.boundsWidth, contentHeight := s.boundsHeight);
    var internal' :=
      if page.ownsScroll then internal
      else internal.(offsetX := 0.0, offsetY := -s.headerHeight - s.tabsHeight);
    var src1 := s.sources.(internal := internal');
    var top := Max(s.constant, s.headerHeight) + s.tabsHeight;
    var src2 := Set(src1, page, Get(src1, page).(inset := Insets(top, 0.0, BottomInset(s.tabBar), 0.0)));
    var src3 :=
      if page in s.shown then src2
      else Set(src2, page, Get(src2, page).(offsetX := 0.0, offsetY := -s.headerHeight - s.tabsHeight));
    s.(originalTopInset := top, sources := src3, shown := s.shown + {page})
  }

  /** Laying a page out again changes nothing: the inset is set, not added
      to, so this snapshot needs no inset bookkeeping when a page leaves. */
  lemma LayoutChildIdempotent(s: Pager, page: Page)
    ensures LayoutChild(LayoutChild(s, page), page) == LayoutChild(s, page)
  {
  }

  /** In the current view the same double layout adds the expected inset a
      second time to a page with its own scroll view, which is why its switch
      completion takes the inset back from the outgoing page. */
  lemma CurrentViewLayoutAccumulatesInset(s: ParallaxPager.Pager, page: Page)
    requires page.ownsScroll
    ensures var once := ParallaxPager.LayoutChild(s, page);
            var twice := ParallaxPager.LayoutChild(once, page);
            Get(twice.sources, page).inset.top == Get(once.sources, page).inset.top + once.originalTopInset
  {
  }

  /** Lays out and observes the first page, which becomes the displayed one. */
  function LayoutContentViewControllers(s: Pager): (r: Pager)
    ensures s.pages == [] ==> r == s
    ensures s.pages != [] ==>
              && r.current == Some(s.pages[0]) && r.observing == Some(s.pages[0])
              && r.shown == s.shown + {s.pages[0]}
              && r.constant == s.constant && r.headerHeight == s.headerHeight && r.pages == s.pages
              && r.originalTopInset == Max(s.constant, s.headerHeight) + s.tabsHeight
  {
    if s.pages == [] then s
    else
      var first := s.pages[0];
      LayoutChild(s, first).(observing := Some(first), current := Some(first))
  }

  /** Laying out the first page again changes nothing. */
  lemma LayoutContentViewControllersIdempotent(s: Pager)
    ensures LayoutContentViewControllers(LayoutContentViewControllers(s)) == LayoutContentViewControllers(s)
  {
    if s.pages != [] {
      LayoutChildIdempotent(s, s.pages[0]);
    }
  }

  /** The view as built by its initialisers: the header at full height and
      the first page displayed. The initialiser without a strip takes one
      page and leaves the strip height at zero. */
  function Init(headerHeight: real, minimumHeaderHeight: real, scaleOnBounce: bool, strip: Option<real>,
                pages: seq<Page>, own: map<Page, Scroll>, tabBar: Option<TabBar>,
                boundsWidth: real, boundsHeight: real): (r: Pager)
    ensures r.constant == r.headerHeight == headerHeight
    ensures r.tabsHeight == OrElse(strip, 0.0)
    ensures !r.ignoreOffsetChanged && r.pages == pages
    ensures pages == [] ==> r.current.None? && r.shown == {}
    ensures pages != [] ==>
              && r.current == Some(pages[0]) && r.observing == Some(pages[0]) && r.shown == {pages[0]}
              && Get(r.sources, pages[0]).offsetY == -headerHeight - OrElse(strip, 0.0)
              && Get(r.sources, pages[0]).inset.top == r.originalTopInset
  {
    var s := Pager(headerHeight, minimumHeaderHeight, scaleOnBounce, OrElse(strip, 0.0),
                   headerHeight, 0.0, false, pages, None, {}, Sources(FreshScroll, own), None,
                   boundsWidth, boundsHeight, tabBar);
    LayoutContentViewControllers(s)
  }

  /** The first layout is settled whatever inset the page's scroll view
      came with: its top inset is exactly the expected one, so an inset event
      reporting it leaves offset events enabled, and the page sits at the
      fully expanded position. */
  lemma InitIsSettled(headerHeight: real, minimumHeaderHeight: real, scaleOnBounce: bool, strip: Option<real>,
                      pages: seq<Page>, own: map<Page, Scroll>, tabBar: Option<TabBar>,
                      boundsWidth: real, boundsHeight: real)
    requires pages != []
    ensures var r := Init(headerHeight, minimumHeaderHeight, scaleOnBounce, strip, pages, own, tabBar, boundsWidth, boundsHeight);
            var sc := Get(r.sources, pages[0]);
            && sc.inset.top == r.originalTopInset
            && !OnInsetChanged(r, Some(sc.inset)).ignoreOffsetChanged
            && HeaderStep.Gap(Cfg(r), sc.offsetY) == headerHeight
  {
  }

  /** The re-layout the header setter starts with: the new full height is
      stored and the first page is laid out again and observed. */
  function Relayout(s: Pager, h: real): (r: Pager)
    ensures r == LayoutContentViewControllers(s.(headerHeight := h))
    ensures r.headerHeight == h && r.constant == s.constant && r.ignoreOffsetChanged == s.ignoreOffsetChanged
  {
    LayoutContentViewControllers(s.(headerHeight := h))
  }

  /** The writes of the header setter as written. The new constant is
      computed as `constant ?? 0 + heightDiff`, which Swift reads as
      `constant ?? (0 + heightDiff)` because `+` binds tighter than `??`.
      With a header the constant is therefore kept, and only the displayed
      page's offset moves by the difference. The events these writes raise
      are added by `SetHeaderHeightObserved`. */
  function SetHeaderHeight(s: Pager, h: real): (r: Pager)
    ensures h <= s.minimumHeaderHeight ==> r == s
    ensures h > s.minimumHeaderHeight ==> r.headerHeight == h && r.constant == s.constant
    ensures h > s.minimumHeaderHeight && s.pages != [] ==>
              var p := s.pages[0];
              && r.current == Some(p) && r.observing == Some(p) && r.shown == s.shown + {p}
              && r.originalTopInset == Max(s.constant, h) + s.tabsHeight
              && Get(r.sources, p).inset == Insets(r.originalTopInset, 0.0, BottomInset(s.tabBar), 0.0)
    ensures h > s.minimumHeaderHeight && s.pages != [] && s.pages[0] in s.shown && s.pages[0].ownsScroll ==>
              var p := s.pages[0];
              Get(r.sources, p).offsetY ==
                (if s.constant > s.minimumHeaderHeight then Get(s.sources, p).offsetY - (h - s.headerHeight)
                 else Get(s.sources, p).offsetY)
  {
    if h <= s.minimumHeaderHeight then s
    else
      var s1 := Relayout(s, h);
      ShiftDisplayedPage(s1, s1.constant, h - s.headerHeight)
  }

  /** The tail shared by the header setters: when `heightToBe` is above the
      minimum it becomes the constant and the displayed page, if it has a
      scroll view of its own, moves up by `diff` and takes the internal
      scroll view's horizontal offset. */
  function ShiftDisplayedPage(s: Pager, heightToBe: real, diff: real): (r: Pager)
    ensures heightToBe <= s.minimumHeaderHeight ==> r == s
    ensures heightToBe > s.minimumHeaderHeight ==> r.constant == heightToBe
    ensures heightToBe > s.minimumHeaderHeight && s.current.Some? && s.current.value.ownsScroll ==>
              Get(r.sources, s.current.value).offsetY == Get(s.sources, s.current.value).offsetY - diff
    ensures r == s.(constant := r.constant, sources := r.sources)
  {
    if heightToBe <= s.minimumHeaderHeight then s
    else
      var s1 := s.(constant := heightToBe);
      match s1.current
      case Some(p) =>
        if p.ownsScroll then
          var sc := Get(s1.sources, p);
          s1.(sources := Set(s1.sources, p, sc.(offsetX := s1.sources.internal.offsetX, offsetY := sc.offsetY - diff)))
        else s1
      case None => s1
  }

  /** The two inset events of the re-layout, from state `s` before it to
      state `w` after the writes. Clearing the internal scroll view's inset
      is seen when that view is watched, and compares a zero top with the
      expected inset from before. Writing the first page's inset, to the
      expected inset, is seen when that page's scroll view is watched. */
  function InsetEchoes(s: Pager, w: Pager): (r: Pager)
    requires s.pages != [] ==> Get(w.sources, s.pages[0]).inset.top == w.originalTopInset
    ensures r == w.(ignoreOffsetChanged := r.ignoreOffsetChanged)
    // the echo of the first page's inset leaves offset events live
    ensures s.pages != [] && s.observing.Some? && SameSurface(s.observing.value, s.pages[0]) ==>
              !r.ignoreOffsetChanged
    // with only the cleared internal inset seen, offset events stay off
    // exactly when the old expected inset was 2 or more away from zero
    ensures s.pages != [] && s.observing.Some? && !s.observing.value.ownsScroll && s.pages[0].ownsScroll ==>
              (r.ignoreOffsetChanged <==> Abs(s.originalTopInset) >= 2.0)
    // with neither write seen, the flag is the one from before
    ensures s.pages == [] || s.observing.None? ||
            (s.observing.value.ownsScroll && s.observing.value != s.pages[0]) ==>
              r.ignoreOffsetChanged == w.ignoreOffsetChanged
  {
    var w0 :=
      if s.pages != [] && s.observing.Some? && !s.observing.value.ownsScroll
      then w.(ignoreOffsetChanged := OnInsetChanged(s, Some(ZeroInsets)).ignoreOffsetChanged)
      else w;
    if s.pages != [] && s.observing.Some? && SameSurface(s.observing.value, s.pages[0])
    then OnInsetChanged(w0, Some(Get(w0.sources, s.pages[0]).inset))
    else w0
  }

  /** The writes of a header setter computing `heightToBe`, followed by the
      observer events they raise when nothing silences them. The re-layout
      writes two insets while the observers still watch the scroll view they
      watched before. It first clears the internal scroll view's inset; when
      that view is watched, the event compares a zero top with the expected
      inset from before the re-layout. It then writes the first page's inset;
      when that page's scroll view is watched, the event compares the written
      inset with the expected inset just updated to the same value, and so
      clears the suppression flag. Re-attaching the observers raises nothing.
      The setter's final offset write then reaches the re-attached offset
      observer; `movingDown` is the drag direction that observer reads. */
  function WithEchoes(s: Pager, h: real, heightToBe: real, movingDown: bool): (r: Reaction)
    ensures var s1 := Relayout(s, h);
            var w := ShiftDisplayedPage(s1, heightToBe, h - s.headerHeight);
            r.state == w.(constant := r.state.constant, ignoreOffsetChanged := r.state.ignoreOffsetChanged)
    ensures s.pages != [] && s.observing == Some(s.pages[0]) && heightToBe > s.minimumHeaderHeight &&
            s.pages[0].ownsScroll && h != s.headerHeight ==>
              var s1 := Relayout(s, h);
              var y := Get(s1.sources, s.pages[0]).offsetY;
              var n := y - (h - s.headerHeight);
              && r.state.constant ==
                   (if HeaderStep.ShouldIgnoreOffsetUpdate(movingDown, y, n) then heightToBe
                    else HeaderStep.NextConstant(Cfg(s1), heightToBe, y, n))
              && |r.notes| <= 1
    ensures s.pages != [] ==>
              r.state.ignoreOffsetChanged == InsetEchoes(s, ShiftDisplayedPage(Relayout(s, h), heightToBe, h - s.headerHeight)).ignoreOffsetChanged
  {
    var s1 := Relayout(s, h);
    var w := ShiftDisplayedPage(s1, heightToBe, h - s.headerHeight);
    var w1 := InsetEchoes(s, w);
    if heightToBe > s.minimumHeaderHeight && w.current.Some? && w.current.value.ownsScroll &&
       w.observing.Some? && SameSurface(w.observing.value, w.current.value)
    then
      var p := w.current.value;
      OnOffsetChanged(w1, movingDown, Some(Get(s1.sources, p).offsetY), Some(Get(w.sources, p).offsetY))
    else Reaction(w1, [])
  }

  /** The header setter as the program runs it: the writes as written,
      then the events they raise. */
  function SetHeaderHeightObserved(s: Pager, h: real, movingDown: bool): (r: Reaction)
    ensures h <= s.minimumHeaderHeight ==> r == Reaction(s, [])
    ensures h > s.minimumHeaderHeight ==>
              r.state == SetHeaderHeight(s, h).(constant := r.state.constant, ignoreOffsetChanged := r.state.ignoreOffsetChanged)
  {
    if h <= s.minimumHeaderHeight then Reaction(s, [])
    else WithEchoes(s, h, Relayout(s, h).constant, movingDown)
  }

  /** When the displayed page has no scroll view of its own, the observers
      watch the internal scroll view as the header changes. Clearing that
      view's inset then switches offset events off, and nothing switches
      them back on: the observers move to the first page's own scroll view
      without an inset event. The setter's offset event is dropped, the
      header keeps its constant, and so does every later scroll of the first
      page until an inset event arrives. */
  lemma InternalObserverSilencesHeader(s: Pager, h: real, movingDown: bool,
                                       laterDown: bool, o: Option<real>, n: Option<real>)
    requires h > s.minimumHeaderHeight && s.pages != [] && s.pages[0].ownsScroll
    requires s.observing.Some? && !s.observing.value.ownsScroll
    requires Abs(s.originalTopInset) >= 2.0
    ensures var r := SetHeaderHeightObserved(s, h, movingDown);
            && r.state.ignoreOffsetChanged && r.notes == [] && r.state.constant == s.constant
            && r.state.observing == Some(s.pages[0])
            && OnOffsetChanged(r.state, laterDown, o, n) == Reaction(r.state, [])
  {
  }

  /** An example: header 300 at full height, minimum 84, strip 50, expected
      inset 350; the pages are one with its own scroll view and one without,
      and the second is displayed. Asking for a 400 header leaves it at 300
      with offset events switched off. */
  lemma InternalObserverExample(movingDown: bool)
    ensures var p0 := Page(0, true);
            var p1 := Page(1, false);
            var s := Pager(300.0, 84.0, false, 50.0, 300.0, 350.0, false, [p0, p1], Some(p1), {p0, p1},
                           Sources(FreshScroll, map[p0 := FreshScroll.(offsetY := -350.0)]), Some(p1),
                           320.0, 640.0, None);
            var r := SetHeaderHeightObserved(s, 400.0, movingDown);
            && r.state.constant == 300.0 && r.state.headerHeight == 400.0
            && r.state.ignoreOffsetChanged && r.state.current == Some(p0) && r.notes == []
  {
  }

  /** The header setter with only the parentheses corrected, to
      `(constant ?? 0) + heightDiff`, and its offset write still unsilenced. */
  function SetHeaderHeightParenthesesOnly(s: Pager, h: real, movingDown: bool): (r: Reaction)
    ensures h <= s.minimumHeaderHeight ==> r == Reaction(s, [])
  {
    if h <= s.minimumHeaderHeight then Reaction(s, [])
    else WithEchoes(s, h, Relayout(s, h).constant + (h - s.headerHeight), movingDown)
  }

  /** The header setter as evidently intended, as the current view has it:
      the constant is computed as `(constant ?? 0) + heightDiff`, and the
      offset write is bracketed by the suppression flag, so its event is
      dropped and the flag is clear afterwards. */
  function SetHeaderHeightIntended(s: Pager, h: real): (r: Pager)
    ensures h <= s.minimumHeaderHeight ==> r == s
    ensures h > s.minimumHeaderHeight ==> r.headerHeight == h && !r.ignoreOffsetChanged
    ensures h > s.minimumHeaderHeight && s.constant + (h - s.headerHeight) > s.minimumHeaderHeight ==>
              r.constant == s.constant + (h - s.headerHeight)
    ensures h > s.minimumHeaderHeight && s.constant + (h - s.headerHeight) <= s.minimumHeaderHeight ==>
              r.constant == s.constant
    ensures h > s.minimumHeaderHeight && s.pages != [] ==>
              var p := s.pages[0];
              && r.current == Some(p) && r.observing == Some(p) && r.shown == s.shown + {p}
              && Get(r.sources, p).inset == Insets(r.originalTopInset, 0.0, BottomInset(s.tabBar), 0.0)
  {
    if h <= s.minimumHeaderHeight then s
    else
      var diff := h - s.headerHeight;
      var s1 := Relayout(s, h);
      ShiftDisplayedPage(s1, s1.constant + diff, diff).(ignoreOffsetChanged := false)
  }

  /** The property the setter exists for: a page with its own scroll view
      that was shown before keeps its content where it was relative to the
      bottom of the header, since header and offset move by the same amount. */
  lemma IntendedKeepsContentInPlace(s: Pager, h: real)
    requires h > s.minimumHeaderHeight && s.pages != []
    requires s.pages[0] in s.shown && s.pages[0].ownsScroll
    ensures var r := SetHeaderHeightIntended(s, h);
            var p := s.pages[0];
            r.constant + Get(r.sources, p).offsetY == s.constant + Get(s.sources, p).offsetY
  {
  }

  /** The program as written breaks that property when the header grows
      while the displayed page is scrolled into its content: the offset
      event the setter raises lands in the regime that keeps a header above
      the minimum, so the header stays and the content jumps by the
      difference. */
  lemma AsWrittenMovesContent(s: Pager, h: real, movingDown: bool)
    requires h > s.headerHeight && s.pages != []
    requires s.pages[0] in s.shown && s.pages[0].ownsScroll
    requires s.constant > s.minimumHeaderHeight && s.headerHeight > s.minimumHeaderHeight
    requires Get(s.sources, s.pages[0]).offsetY - (h - s.headerHeight) > 0.0
    ensures var r := SetHeaderHeightObserved(s, h, movingDown).state;
            var p := s.pages[0];
            && r.constant == s.constant
            && Get(r.sources, p).offsetY == Get(s.sources, p).offsetY - (h - s.headerHeight)
            && r.constant + Get(r.sources, p).offsetY == s.constant + Get(s.sources, p).offsetY - (h - s.headerHeight)
  {
  }

  /** A concrete instance: header 300 with the constant at 100, minimum 84,
      strip 50, the first page scrolled 500 into its content; asking for a
      400 header leaves the header at 100 and scrolls the content to 400,
      where the intended setter gives a 200 header at the same offset. */
  lemma AsWrittenExample(movingDown: bool)
    ensures var p := Page(0, true);
            var s := Pager(300.0, 84.0, false, 50.0, 100.0, 350.0, false, [p], Some(p), {p},
                           Sources(FreshScroll, map[p := FreshScroll.(offsetY := 500.0)]), Some(p),
                           320.0, 640.0, None);
            var r := SetHeaderHeightObserved(s, 400.0, movingDown).state;
            var fixed := SetHeaderHeightIntended(s, 400.0);
            && r.constant == 100.0 && Get(r.sources, p).offsetY == 400.0
            && fixed.constant == 200.0 && Get(fixed.sources, p).offsetY == 400.0
  {
  }

  /** The raised event hides the defect when the page is pulled down far
      enough: header 300 at full height, minimum 84, strip 50, the page at
      -350 and observed; asking for 400, the setter keeps the header at 300
      and moves the content to -450, and the event of that move re-expands
      the header to 400, as the intended setter has it. */
  lemma EventHidesDefectWhenPulledDown(movingDown: bool)
    ensures var p := Page(0, true);
            var s := Pager(300.0, 84.0, false, 50.0, 300.0, 350.0, false, [p], Some(p), {p},
                           Sources(FreshScroll, map[p := FreshScroll.(offsetY := -350.0)]), Some(p),
                           320.0, 640.0, None);
            var r := SetHeaderHeightObserved(s, 400.0, movingDown).state;
            var fixed := SetHeaderHeightIntended(s, 400.0);
            && SetHeaderHeight(s, 400.0).constant == 300.0
            && r.constant == 400.0 && Get(r.sources, p).offsetY == -450.0
            && fixed.constant == 400.0 && Get(fixed.sources, p).offsetY == -450.0
  {
  }

  /** In general: when the header grows while the observed page is pulled
      down past the header's height, the event re-expands the header by the
      difference and the program ends where the intended setter does. */
  lemma EventRepairsPulledDownPage(s: Pager, h: real, movingDown: bool)
    requires h > s.headerHeight && s.pages != [] && s.observing == Some(s.pages[0])
    requires s.pages[0] in s.shown && s.pages[0].ownsScroll
    requires s.minimumHeaderHeight < s.constant < h
    requires var n := Get(s.sources, s.pages[0]).offsetY - (h - s.headerHeight);
             n <= 0.0 && s.constant < -(n + s.tabsHeight)
    ensures var r := SetHeaderHeightObserved(s, h, movingDown).state;
            var fixed := SetHeaderHeightIntended(s, h);
            r.constant == fixed.constant &&
            Get(r.sources, s.pages[0]).offsetY == Get(fixed.sources, s.pages[0]).offsetY
  {
  }

  /** Correcting the parentheses alone is not enough in this view: the
      unsilenced event then applies the difference a second time. Header 300
      with the constant at 200, minimum 84, strip 50, the page at -250 and
      observed; asking for 250, the program as written ends at 150, the
      parentheses-only setter at 100, and the intended setter at 150. */
  lemma ParenthesesOnlyCountsTwice()
    ensures var p := Page(0, true);
            var s := Pager(300.0, 84.0, false, 50.0, 200.0, 350.0, false, [p], Some(p), {p},
                           Sources(FreshScroll, map[p := FreshScroll.(offsetY := -250.0)]), Some(p),
                           320.0, 640.0, None);
            && SetHeaderHeightObserved(s, 250.0, false).state.constant == 150.0
            && SetHeaderHeightParenthesesOnly(s, 250.0, false).state.constant == 100.0
            && SetHeaderHeightIntended(s, 250.0).constant == 150.0
  {
  }

  /** On the header the corrected setter agrees with the current view's. */
  lemma IntendedMatchesCurrentView(a: ParallaxPager.Pager, b: Pager, h: real)
    requires Corresponds(a, b) && a.current.Some?
    ensures SetHeaderHeightIntended(b, h).constant == ParallaxPager.SetHeaderHeight(a, h).constant
    ensures SetHeaderHeightIntended(b, h).headerHeight == ParallaxPager.SetHeaderHeight(a, h).headerHeight
    ensures SetHeaderHeightIntended(b, h).ignoreOffsetChanged == ParallaxPager.SetHeaderHeight(a, h).ignoreOffsetChanged
  {
  }

  datatype Switch = Switch(state: Pager, notes: seq<Note>, slide: Option<Slide>)

  /** The synchronous part of switching to page `index`: stop observing, lay
      out the incoming page off-screen, snap its offset to the current header
      when the header is not at full height, and observe it. */
  function Begin(s: Pager, index: int, previous: int): (r: (Pager, Slide))
    requires 0 <= index < |s.pages|
    ensures r.0.observing == Some(s.pages[index])
    ensures r.0.shown == s.shown + {s.pages[index]}
    ensures r.1 == SlideFor(index, previous, s.boundsWidth)
    ensures var y := Get(LayoutChild(s, s.pages[index]).sources, s.pages[index]).offsetY;
            Get(r.0.sources, s.pages[index]).offsetY ==
              if s.constant != s.headerHeight && HeaderStep.InSnapWindow(Cfg(s), y) then -s.tabsHeight - s.constant else y
    // the incoming page is as laid out, with at most its offset snapped to
    // the left edge at the current header
    ensures var laid := Get(LayoutChild(s, s.pages[index]).sources, s.pages[index]);
            var sc := Get(r.0.sources, s.pages[index]);
            sc == laid || sc == laid.(offsetX := 0.0, offsetY := -s.tabsHeight - s.constant)
    // every other scroll view is as the layout leaves it
    ensures forall q :: !SameSurface(s.pages[index], q) ==>
              Get(r.0.sources, q) == Get(LayoutChild(s, s.pages[index]).sources, q)
    ensures r.0 == LayoutChild(s, s.pages[index]).(sources := r.0.sources, observing := r.0.observing)
  {
    var page := s.pages[index];
    var s1 := LayoutChild(s.(observing := None), page);
    var sc := Get(s1.sources, page);
    var snap := s.constant != s.headerHeight && HeaderStep.InSnapWindow(Cfg(s), sc.offsetY);
    var sc' := if snap then sc.(offsetX := 0.0, offsetY := -s.tabsHeight - s.constant) else sc;
    (s1.(sources := Set(s1.sources, page, sc'), observing := Some(page)), SlideFor(index, previous, s.boundsWidth))
  }

  /** The animation completion: the incoming page becomes the displayed one,
      the delegate hears of it and then the completion handler runs. No
      scroll view changes. */
  function Complete(s: Pager, page: Page, index: int, previous: int, completion: bool): (r: Reaction)
    ensures r.state == s.(current := Some(page))
    ensures r.notes == [DidSelect(index, previous)] + (if completion then [Completed] else [])
  {
    Reaction(s.(current := Some(page)), [DidSelect(index, previous)] + (if completion then [Completed] else []))
  }

  /** Tab activation. Out-of-range indices and re-selecting the displayed
      page change nothing and tell nobody; a switch with no displayed page
      traps on the forced unwrap; any other switch runs to completion. */
  function Activate(s: Pager, index: int, previous: int, completion: bool): (r: Outcome<Switch>)
    ensures !(0 <= index < |s.pages|) ==> r == Done(Switch(s, [], None))
    ensures 0 <= index < |s.pages| && s.current == Some(s.pages[index]) ==> r == Done(Switch(s, [], None))
    ensures 0 <= index < |s.pages| && s.current.None? ==> r.Trapped?
    ensures 0 <= index < |s.pages| && s.current.Some? && s.current != Some(s.pages[index]) ==>
              && r.Done?
              && r.value.state.current == Some(s.pages[index])
              && r.value.state.observing == Some(s.pages[index])
              && r.value.state.shown == s.shown + {s.pages[index]}
              && r.value.notes == [DidSelect(index, previous)] + (if completion then [Completed] else [])
              && r.value.slide == Some(SlideFor(index, previous, s.boundsWidth))
              && r.value.state.originalTopInset == Max(s.constant, s.headerHeight) + s.tabsHeight
              && Get(r.value.state.sources, s.pages[index]).inset.top == r.value.state.originalTopInset
              && r.value.state.constant == s.constant && r.value.state.headerHeight == s.headerHeight
              && r.value.state.ignoreOffsetChanged == s.ignoreOffsetChanged
  {
    if !(0 <= index < |s.pages|) then Done(Switch(s, [], None))
    else if s.current == Some(s.pages[index]) then Done(Switch(s, [], None))
    else if s.current.None? then Trapped
    else
      var (s1, slide) := Begin(s, index, previous);
      var done := Complete(s1, s.pages[index], index, previous, completion);
      Done(Switch(done.state, done.notes, Some(slide)))
  }

  /** A page shown for the first time always ends the switch at the offset
      matching the current header: when the header is at full height the
      first-show offset already is that offset, and otherwise it lies in the
      snap window. */
  lemma FirstShowMatchesHeader(s: Pager, index: int, previous: int, completion: bool)
    requires 0 <= index < |s.pages| && s.current.Some? && s.current != Some(s.pages[index])
    requires s.pages[index] !in s.shown && s.headerHeight >= 0.0
    ensures var r := Activate(s, index, previous, completion);
            r.Done? && Get(r.value.state.sources, s.pages[index]).offsetY == -s.tabsHeight - s.constant
  {
  }

  /** Re-selecting the displayed page: this snapshot stays silent where the
      current view reports the selection. */
  lemma ReselectIsSilent(a: ParallaxPager.Pager, b: Pager, index: int, previous: int)
    requires 0 <= index < |b.pages| && b.current == Some(b.pages[index])
    requires a.pages == b.pages && a.current == b.current
    ensures Activate(b, index, previous, true).value.notes == []
    ensures ParallaxPager.Activate(a, index, previous, true).value.notes == [DidSelect(index, previous)]
  {
  }

  datatype Session = Session(pager: Pager, strip: TabsView.Strip, notes: seq<Note>)

  /** The strip's selection-change callback: activate the new index,
      animated, without a completion handler. */
  function OnTabsChanged(s: Pager, strip: TabsView.Strip, calls: seq<(int, int)>): (r: Outcome<Session>)
    ensures calls == [] ==> r == Done(Session(s, strip, []))
    ensures |calls| == 1 && Activate(s, calls[0].0, calls[0].1, false).Done? ==>
              r == Done(Session(Activate(s, calls[0].0, calls[0].1, false).value.state, strip,
                                Activate(s, calls[0].0, calls[0].1, false).value.notes))
    ensures |calls| == 1 && Activate(s, calls[0].0, calls[0].1, false).Trapped? ==> r.Trapped?
    decreases |calls|
  {
    if calls == [] then Done(Session(s, strip, []))
    else
      match Activate(s, calls[0].0, calls[0].1, false)
      case Trapped => Trapped
      case Done(sw) =>
        if |calls| == 1 then Done(Session(sw.state, strip, sw.notes))
        else
          match OnTabsChanged(sw.state, strip, calls[1..])
          case Trapped => Trapped
          case Done(rest) => Done(Session(rest.pager, strip, sw.notes + rest.notes))
  }

  /** A horizontal swipe: the strip selects the neighbouring tab when it
      exists and the pager follows through the callback. */
  function Swipe(s: Pager, strip: TabsView.Strip, dir: SwipeDirection, scrollCenterX: real): (r: Outcome<Session>)
    requires TabsView.Valid(strip)
    ensures TabsView.SwipeTarget(dir, strip.selectedIndex, |strip.widths|).None? ==> r == Done(Session(s, strip, []))
    ensures TabsView.SwipeTarget(dir, strip.selectedIndex, |strip.widths|).Some? ==>
              var t := TabsView.SwipeTarget(dir, strip.selectedIndex, |strip.widths|).value;
              var a := Activate(s, t, strip.selectedIndex, false);
              && (r.Trapped? <==> a.Trapped?)
              && (a.Done? ==>
                    && r.value.strip == TabsView.Swipe(strip, dir, scrollCenterX).strip
                    && r.value.strip.selectedIndex == t && r.value.pager == a.value.state && r.value.notes == a.value.notes)
  {
    var clicked := TabsView.Swipe(strip, dir, scrollCenterX);
    OnTabsChanged(s, clicked.strip, clicked.calls)
  }

  /** A left swipe and then a right swipe, with the strip and the pager in
      step and neighbouring pages distinct, come back to the page displayed
      before; the delegate hears of both selections. */
  lemma SwipeThereAndBack(s: Pager, strip: TabsView.Strip, x1: real, x2: real)
    requires TabsView.SingleSelected(strip) && 0 <= strip.selectedIndex && strip.selectedIndex + 1 < |strip.widths|
    requires |strip.widths| == |s.pages| && s.current == Some(s.pages[strip.selectedIndex])
    requires s.pages[strip.selectedIndex] != s.pages[strip.selectedIndex + 1]
    ensures var i := strip.selectedIndex;
            var there := Swipe(s, strip, Left, x1);
            there.Done? && TabsView.Valid(there.value.strip) &&
            var back := Swipe(there.value.pager, there.value.strip, Right, x2);
            && back.Done?
            && back.value.strip.selectedIndex == i && back.value.strip.selected == strip.selected
            && back.value.pager.current == s.current
            && there.value.notes + back.value.notes == [DidSelect(i + 1, i), DidSelect(i, i + 1)]
  {
    TabsView.SwipeThereAndBack(strip, x1, x2);
  }

  /** Re-initialisation with a new page list and strip: the strip height is
      taken over and page 0 is activated as if coming from index -1. */
  function SetupPager(s: Pager, pages: seq<Page>, stripHeight: real, completion: bool): (r: Outcome<Switch>)
    ensures pages == [] ==> r.Done? && r.value.notes == [] && r.value.state.pages == [] && r.value.state.current == s.current
    ensures pages != [] && s.current == Some(pages[0]) ==> r.Done? && r.value.notes == []
    ensures pages != [] && s.current.None? ==> r.Trapped?
    ensures pages != [] && s.current.Some? && s.current != Some(pages[0]) ==>
              && r.Done?
              && r.value.state.current == Some(pages[0])
              && r.value.state.tabsHeight == stripHeight
              && r.value.slide == Some(SlideFor(0, -1, s.boundsWidth))
              && (completion ==> r.value.notes == [DidSelect(0, -1), Completed])
  {
    Activate(s.(tabsHeight := stripHeight, pages := pages), 0, -1, completion)
  }

  /** Setting up the same pages and strip again changes nothing and, the
      first page being displayed already, tells nobody. */
  lemma SetupPagerAgain(s: Pager, pages: seq<Page>, stripHeight: real, c1: bool, c2: bool)
    requires SetupPager(s, pages, stripHeight, c1).Done?
    ensures var first := SetupPager(s, pages, stripHeight, c1).value.state;
            SetupPager(first, pages, stripHeight, c2) == Done(Switch(first, [], None))
  {
  }
}

=== FILE: pager_view.dfy ===
/** The plain pager view: a tab strip above pages that slide in and out
    horizontally, with no header and no scroll coupling. This module follows
    Sources/ParallaxPagerView/PagerViewController.swift. */
module PagerView {
  import opened Common
  import opened ScrollSource
  import TabsView

  datatype Pager = Pager(
    tabsHeight: real,
    hasTabsConstraint: bool,   // a tab strip height constraint exists
    pages: seq<Page>,
    current: Option<Page>,     // the displayed page
    shown: set<Page>,          // pages laid out at least once
    boundsWidth: real)

  /** Puts `page` into the view hierarchy. Only the record of pages shown
      at least once changes; constraints and gesture priorities are layout. */
  function LayoutChild(s: Pager, page: Page): (r: Pager)
    ensures page in r.shown && s.shown <= r.shown
    ensures r.shown - s.shown == (if page in s.shown then {} else {page})
    ensures r == s.(shown := r.shown)
  {
    s.(shown := s.shown + {page})
  }

  /** Lays out the first page and displays it. */
  function LayoutContentViewControllers(s: Pager): (r: Pager)
    ensures s.pages == [] ==> r == s
    ensures s.pages != [] ==> r.current == Some(s.pages[0]) && r.shown == s.shown + {s.pages[0]}
    ensures r.pages == s.pages && r.tabsHeight == s.tabsHeight
  {
    if s.pages == [] then s
    else LayoutChild(s, s.pages[0]).(current := Some(s.pages[0]))
  }

  /** The view as built by its initialisers. The one without a strip takes
      a single page and has no strip height constraint. */
  function Init(strip: Option<real>, pages: seq<Page>, boundsWidth: real): (r: Pager)
    requires strip.None? ==> |pages| == 1
    ensures r.tabsHeight == OrElse(strip, 0.0) && r.hasTabsConstraint == strip.Some?
    ensures r.pages == pages
    ensures pages == [] ==> r.current.None? && r.shown == {}
    ensures pages != [] ==> r.current == Some(pages[0]) && r.shown == {pages[0]}
  {
    LayoutContentViewControllers(Pager(OrElse(strip, 0.0), strip.Some?, pages, None, {}, boundsWidth))
  }

  /** Programmatic change of the strip height: ignored without a strip
      height constraint or for a negative height. */
  function SetTabsHeight(s: Pager, h: real): (r: Pager)
    ensures !s.hasTabsConstraint || h < 0.0 ==> r == s
    ensures s.hasTabsConstraint && h >= 0.0 ==> r.tabsHeight == h
    ensures r == s.(tabsHeight := r.tabsHeight)
  {
    if !s.hasTabsConstraint || h < 0.0 then s else s.(tabsHeight := h)
  }

  /** Of two strip height changes the later valid one wins; an invalid one
      leaves the earlier in place. */
  lemma SetTabsHeightLastWins(s: Pager, h1: real, h2: real)
    ensures h2 >= 0.0 ==> SetTabsHeight(SetTabsHeight(s, h1), h2) == SetTabsHeight(s, h2)
    ensures h2 < 0.0 ==> SetTabsHeight(SetTabsHeight(s, h1), h2) == SetTabsHeight(s, h1)
  {
  }

  /** Laying out the first page again changes nothing. */
  lemma LayoutContentViewControllersIdempotent(s: Pager)
    ensures LayoutContentViewControllers(LayoutContentViewControllers(s)) == LayoutContentViewControllers(s)
  {
  }

  datatype Switch = Switch(state: Pager, notes: seq<Note>, slide: Option<Slide>)

  /** Tab activation. Out-of-range indices change nothing and tell nobody.
      Every other activation first announces the selection; re-selecting the
      displayed page then reports it as done at once; a switch with no
      displayed page traps on the forced unwrap; any other switch lays out
      the incoming page, slides it in and, on completion, displays it. */
  function Activate(s: Pager, index: int, previous: int, completion: bool): (r: Outcome<Switch>)
    ensures !(0 <= index < |s.pages|) ==> r == Done(Switch(s, [], None))
    ensures 0 <= index < |s.pages| && s.current == Some(s.pages[index]) ==>
              r == Done(Switch(s, [WillSelect(index, previous), DidSelect(index, previous)], None))
    ensures 0 <= index < |s.pages| && s.current.None? ==> r.Trapped?
    ensures 0 <= index < |s.pages| && s.current.Some? && s.current != Some(s.pages[index]) ==>
              && r.Done?
              && r.value.state == s.(current := Some(s.pages[index]), shown := s.shown + {s.pages[index]})
              && r.value.notes == [WillSelect(index, previous), DidSelect(index, previous)] +
                                  (if completion then [Completed] else [])
              && r.value.slide == Some(SlideFor(index, previous, s.boundsWidth))
    // whenever the delegate hears anything, the announcement comes first and
    // the selection is confirmed next
    ensures r.Done? && r.value.notes != [] ==>
              |r.value.notes| >= 2 && r.value.notes[0] == WillSelect(index, previous) &&
              r.value.notes[1] == DidSelect(index, previous)
  {
    if !(0 <= index < |s.pages|) then Done(Switch(s, [], None))
    else
      var page := s.pages[index];
      if s.current == Some(page) then Done(Switch(s, [WillSelect(index, previous), DidSelect(index, previous)], None))
      else if s.current.None? then Trapped
      else
        var s1 := LayoutChild(s, page);
        var slide := SlideFor(index, previous, s.boundsWidth);
        var done := [DidSelect(index, previous)] + (if completion then [Completed] else []);
        Done(Switch(s1.(current := Some(page)), [WillSelect(index, previous)] + done, Some(slide)))
  }

  /** With a page displayed, activating any valid index completes, displays
      the requested page and records it as shown, forgetting no page. */
  lemma ActivateDisplaysRequested(s: Pager, index: int, previous: int, completion: bool)
    requires 0 <= index < |s.pages| && s.current.Some?
    requires s.current.value in s.shown
    ensures Activate(s, index, previous, completion).Done?
    ensures var st := Activate(s, index, previous, completion).value.state;
            st.current == Some(s.pages[index]) && st.current.value in st.shown && s.shown <= st.shown
  {
  }

  datatype Session = Session(pager: Pager, strip: TabsView.Strip, notes: seq<Note>)

  /** The strip's selection-change callback: activate the new index,
      animated, without a completion handler. */
  function OnTabsChanged(s: Pager, strip: TabsView.Strip, calls: seq<(int, int)>): (r: Outcome<Session>)
    ensures calls == [] ==> r == Done(Session(s, strip, []))
    ensures |calls| == 1 && Activate(s, calls[0].0, calls[0].1, false).Done? ==>
              r == Done(Session(Activate(s, calls[0].0, calls[0].1, false).value.state, strip,
                                Activate(s, calls[0].0, calls[0].1, false).value.notes))
    ensures |calls| == 1 && Activate(s, calls[0].0, calls[0].1, false).Trapped? ==> r.Trapped?
    decreases |calls|
  {
    if calls == [] then Done(Session(s, strip, []))
    else
      match Activate(s, calls[0].0, calls[0].1, false)
      case Trapped => Trapped
      case Done(sw) =>
        if |calls| == 1 then Done(Session(sw.state, strip, sw.notes))
        else
          match OnTabsChanged(sw.state, strip, calls[1..])
          case Trapped => Trapped
          case Done(rest) => Done(Session(rest.pager, strip, sw.notes + rest.notes))
  }

  /** A horizontal swipe: the strip selects the neighbouring tab when it
      exists and the pager follows through the callback. */
  function Swipe(s: Pager, strip: TabsView.Strip, dir: SwipeDirection, scrollCenterX: real): (r: Outcome<Session>)
    requires TabsView.Valid(strip)
    ensures TabsView.SwipeTarget(dir, strip.selectedIndex, |strip.widths|).None? ==> r == Done(Session(s, strip, []))
    ensures TabsView.SwipeTarget(dir, strip.selectedIndex, |strip.widths|).Some? ==>
              var t := TabsView.SwipeTarget(dir, strip.selectedIndex, |strip.widths|).value;
              var a := Activate(s, t, strip.selectedIndex, false);
              && (r.Trapped? <==> a.Trapped?)
              && (a.Done? ==>
                    && r.value.strip == TabsView.Swipe(strip, dir, scrollCenterX).strip
                    && r.value.strip.selectedIndex == t && r.value.pager == a.value.state && r.value.notes == a.value.notes)
  {
    var clicked := TabsView.Swipe(strip, dir, scrollCenterX);
    OnTabsChanged(s, clicked.strip, clicked.calls)
  }

  /** A left swipe and then a right swipe, with the strip and the pager in
      step, come back to the page displayed before; the delegate hears both
      announcements and both selections. */
  lemma SwipeThereAndBack(s: Pager, strip: TabsView.Strip, x1: real, x2: real)
    requires TabsView.SingleSelected(strip) && 0 <= strip.selectedIndex && strip.selectedIndex + 1 < |strip.widths|
    requires |strip.widths| == |s.pages| && s.current == Some(s.pages[strip.selectedIndex])
    ensures var i := strip.selectedIndex;
            var there := Swipe(s, strip, Left, x1);
            there.Done? && TabsView.Valid(there.value.strip) &&
            var back := Swipe(there.value.pager, there.value.strip, Right, x2);
            && back.Done?
            && back.value.strip.selectedIndex == i && back.value.strip.selected == strip.selected
            && back.value.pager.current == s.current
            && there.value.notes + back.value.notes ==
                 [WillSelect(i + 1, i), DidSelect(i + 1, i), WillSelect(i, i + 1), DidSelect(i, i + 1)]
  {
    TabsView.SwipeThereAndBack(strip, x1, x2);
  }

  /** Re-initialisation with a new page list and strip: the strip height is
      taken over, a strip height constraint now exists, and page 0 is
      activated as if coming from index -1. */
  function SetupPager(s: Pager, pages: seq<Page>, stripHeight: real, completion: bool): (r: Outcome<Switch>)
    ensures pages == [] ==> r == Done(Switch(s.(tabsHeight := stripHeight, hasTabsConstraint := true, pages := []), [], None))
    ensures pages != [] && s.current == Some(pages[0]) ==>
              r.Done? && r.value.notes == [WillSelect(0, -1), DidSelect(0, -1)]
    ensures pages != [] && s.current.None? ==> r.Trapped?
    ensures pages != [] && s.current.Some? && s.current != Some(pages[0]) ==>
              && r.Done?
              && r.value.state.current == Some(pages[0])
              && r.value.state.tabsHeight == stripHeight && r.value.state.hasTabsConstraint
              && (completion ==> r.value.notes == [WillSelect(0, -1), DidSelect(0, -1), Completed])
  {
    Activate(s.(tabsHeight := stripHeight, hasTabsConstraint := true, pages := pages), 0, -1, completion)
  }

  /** Setting up the same pages and strip again changes nothing: the first
      page is already displayed, so the delegate only hears of it again. */
  lemma SetupPagerAgain(s: Pager, pages: seq<Page>, stripHeight: real, c1: bool, c2: bool)
    requires SetupPager(s, pages, stripHeight, c1).Done?
    ensures var first := SetupPager(s, pages, stripHeight, c1).value.state;
            SetupPager(first, pages, stripHeight, c2) ==
              Done(Switch(first, if pages == [] then [] else [WillSelect(0, -1), DidSelect(0, -1)], None))
  {
  }
}

=== FILE: parallax_pager.dfy ===
/** The parallax pager view: a collapsible header above a tab strip above
    the active content page, whose vertical scrolling drives the header
    height. This module follows Sources/ParallaxPagerView/ParallaxPagerView.swift.

    Offset and inset changes of the observed scroll view arrive as explicit
    events. The view's own writes to a scroll view are not fed back as
    events: the header and strip setters silence theirs with the suppression
    flag, and a switch re-attaches the observers only after its writes. */
module ParallaxPager {
  import opened Common
  import opened ScrollSource
  import HeaderStep
  import TabsView

  datatype Pager = Pager(
    headerHeight: real,          // full header height
    minimumHeaderHeight: real,
    scaleOnBounce: bool,
    tabsHeight: real,
    hasTabsConstraint: bool,     // a tab strip height constraint exists
    constant: real,              // current header height constraint constant
    originalTopInset: real,      // top inset the active page is expected to have
    ignoreOffsetChanged: bool,
    pages: seq<Page>,
    current: Option<Page>,       // the displayed page
    shown: set<Page>,            // pages laid out at least once
    sources: Sources,
    observing: Option<Page>,     // the page whose scroll view is observed
    boundsWidth: real,
    boundsHeight: real)

  /** The configuration the step function reads. */
  function Cfg(s: Pager): HeaderStep.Config
  {
    HeaderStep.Config(s.headerHeight, s.minimumHeaderHeight, s.tabsHeight, s.scaleOnBounce)
  }

  datatype Reaction = Reaction(state: Pager, notes: seq<Note>)

  /** An observed offset change. The old and new offsets default to zero
      when absent; `movingDown` is the direction of the user's drag. */
  function OnOffsetChanged(s: Pager, movingDown: bool, oldOffset: Option<real>, newOffset: Option<real>): (r: Reaction)
    ensures var o := OrElse(oldOffset, 0.0); var n := OrElse(newOffset, 0.0);
            r.notes == [] <==> s.ignoreOffsetChanged || HeaderStep.ShouldIgnoreOffsetUpdate(movingDown, o, n)
    ensures r.notes == [] ==> r.state == s
    ensures r.state == s.(constant := r.state.constant)
    ensures var o := OrElse(oldOffset, 0.0); var n := OrElse(newOffset, 0.0);
            r.notes != [] ==>
              && r.state.constant == HeaderStep.NextConstant(Cfg(s), s.constant, o, n)
              && r.notes == [DidScroll(HeaderStep.Progress(Cfg(s), r.state.constant), HeaderStep.MaximumProgress(Cfg(s)), o, n)]
  {
    var o := OrElse(oldOffset, 0.0);
    var n := OrElse(newOffset, 0.0);
    if s.ignoreOffsetChanged then Reaction(s, [])
    else if HeaderStep.ShouldIgnoreOffsetUpdate(movingDown, o, n) then Reaction(s, [])
    else
      var c := HeaderStep.NextConstant(Cfg(s), s.constant, o, n);
      var progress := c - s.minimumHeaderHeight;
      var maximum := s.headerHeight - s.minimumHeaderHeight;
      Reaction(s.(constant := c), [DidScroll(progress, maximum, o, n)])
  }

  /** An observed inset change: offset events are silenced while the top
      inset is 2 or more away from the expected one. */
  function OnInsetChanged(s: Pager, inset: Option<Insets>): (r: Pager)
    ensures r.ignoreOffsetChanged <==> Abs(OrElse(inset, ZeroInsets).top - s.originalTopInset) >= 2.0
    ensures r == s.(ignoreOffsetChanged := r.ignoreOffsetChanged)
  {
    var top := OrElse(inset, ZeroInsets).top;
    s.(ignoreOffsetChanged := HeaderStep.InsetSuppressesOffsets(top, s.originalTopInset))
  }

  /** The feedback guard end to end: after an inset event, an offset event
      is dropped exactly when the inset is out of tolerance or the offset
      event itself is filtered. */
  lemma InsetEchoSilencesOffsets(s: Pager, inset: Insets, movingDown: bool, oldY: real, newY: real)
    ensures var s1 := OnInsetChanged(s, Some(inset));
            OnOffsetChanged(s1, movingDown, Some(oldY), Some(newY)).notes == [] <==>
              (Abs(inset.top - s.originalTopInset) >= 2.0 || HeaderStep.ShouldIgnoreOffsetUpdate(movingDown, oldY, newY))
  {
  }

  /** Offset events from `y0` through each of `ys` in turn. */
  function Feed(s: Pager, movingDown: bool, y0: real, ys: seq<real>): (r: Reaction)
    decreases |ys|
  {
    if ys == [] then Reaction(s, [])
    else
      var first := OnOffsetChanged(s, movingDown, Some(y0), Some(ys[0]));
      var rest := Feed(first.state, movingDown, ys[0], ys[1..]);
      Reaction(rest.state, first.notes + rest.notes)
  }

  /** Steady upward scrolling at offsets that are not positive reaches the step
      function on every event: the header follows the replayed constants and
      one progress report is sent per event. */
  lemma {:induction false} FeedFollowsReplay(s: Pager, movingDown: bool, y0: real, ys: seq<real>)
    requires !s.ignoreOffsetChanged
    requires HeaderStep.Rising(y0, ys)
    requires forall i :: 0 <= i < |ys| ==> ys[i] <= 0.0
    ensures |Feed(s, movingDown, y0, ys).notes| == |ys|
    ensures Feed(s, movingDown, y0, ys).state ==
              s.(constant := if ys == [] then s.constant else HeaderStep.Replay(Cfg(s), s.constant, y0, ys)[|ys| - 1])
    decreases |ys|
  {
    if ys != [] {
      var first := OnOffsetChanged(s, movingDown, Some(y0), Some(ys[0]));
      assert !HeaderStep.ShouldIgnoreOffsetUpdate(movingDown, y0, ys[0]);
      var c1 := HeaderStep.NextConstant(Cfg(s), s.constant, y0, ys[0]);
      assert first.state == s.(constant := c1);
      FeedFollowsReplay(first.state, movingDown, ys[0], ys[1..]);
      assert Cfg(first.state) == Cfg(s);
      var cs := HeaderStep.Replay(Cfg(s), s.constant, y0, ys);
      assert cs == [c1] + HeaderStep.Replay(Cfg(s), c1, ys[0], ys[1..]);
    }
  }

  /** Programmatic change of the full header height. Heights at or below the
      minimum are ignored. Otherwise the displayed page's top inset grows by
      the difference, and header and offset move together so that the
      content stays where it is relative to the header. */
  function SetHeaderHeight(s: Pager, h: real): (r: Pager)
    ensures h <= s.minimumHeaderHeight ==> r == s
    ensures h > s.minimumHeaderHeight ==>
              && r.headerHeight == h
              && r.originalTopInset - s.originalTopInset == h - s.headerHeight
              && r.tabsHeight == s.tabsHeight && r.current == s.current && r.shown == s.shown
              && r.observing == s.observing && r.pages == s.pages
    ensures h > s.minimumHeaderHeight && s.current.None? ==>
              r.constant == s.constant && r.sources == s.sources && r.ignoreOffsetChanged == s.ignoreOffsetChanged
    ensures h > s.minimumHeaderHeight && s.current.Some? ==>
              var p := s.current.value;
              var diff := h - s.headerHeight;
              && !r.ignoreOffsetChanged
              && Get(r.sources, p).inset.top == Get(s.sources, p).inset.top + diff
              && (s.constant + diff > s.minimumHeaderHeight ==>
                    r.constant == s.constant + diff && Get(r.sources, p).offsetY == Get(s.sources, p).offsetY - diff)
              && (s.constant + diff <= s.minimumHeaderHeight ==>
                    r.constant == s.constant && Get(r.sources, p).offsetY == Get(s.sources, p).offsetY)
              && r.constant + Get(r.sources, p).offsetY == s.constant + Get(s.sources, p).offsetY
              && Get(r.sources, p).contentHeight >= s.boundsHeight - s.minimumHeaderHeight - s.tabsHeight
              && (forall q :: !SameSurface(p, q) ==> Get(r.sources, q) == Get(s.sources, q))
  {
    if h <= s.minimumHeaderHeight then s
    else
      var diff := h - s.headerHeight;
      var s1 := s.(headerHeight := h, originalTopInset := s.originalTopInset + diff);
      var heightToBe := s.constant + diff;
      match s.current
      case None => s1
      case Some(page) =>
        var sc := Get(s1.sources, page);
        var sc1 := UpdateTopInset(sc, diff);
        var sc2 := ApplyMinimumContentHeight(sc1, s.boundsHeight, s.minimumHeaderHeight, s.tabsHeight);
        var grows := heightToBe > s.minimumHeaderHeight;
        var sc3 := sc2.(offsetY := if grows then sc.offsetY - diff else sc.offsetY);
        s1.(constant := if grows then heightToBe else s.constant,
            sources := Set(s1.sources, page, sc3),
            ignoreOffsetChanged := false)
  }

  /** Setting the header height and then setting it back restores the
      header, the expected inset and the displayed page's inset and offset. */
  lemma SetHeaderHeightRoundTrip(s: Pager, h: real)
    requires h > s.minimumHeaderHeight && s.headerHeight > s.minimumHeaderHeight
    requires s.constant > s.minimumHeaderHeight && s.constant + (h - s.headerHeight) > s.minimumHeaderHeight
    ensures var r := SetHeaderHeight(SetHeaderHeight(s, h), s.headerHeight);
            && r.headerHeight == s.headerHeight
            && r.originalTopInset == s.originalTopInset
            && r.constant == s.constant
            && (s.current.Some? ==>
                  Get(r.sources, s.current.value).offsetY == Get(s.sources, s.current.value).offsetY &&
                  Get(r.sources, s.current.value).inset == Get(s.sources, s.current.value).inset)
  {
  }

  /** Programmatic change of the tab strip height. Ignored without a strip
      height constraint or for a negative height. Otherwise the expected
      inset and the displayed page's top inset grow by the difference and its
      offset moves up by it; the header does not change. */
  function SetTabsHeight(s: Pager, h: real): (r: Pager)
    ensures !s.hasTabsConstraint || h < 0.0 ==> r == s
    ensures s.hasTabsConstraint && h >= 0.0 ==>
              && r.tabsHeight == h
              && r.originalTopInset - s.originalTopInset == h - s.tabsHeight
              && r.constant == s.constant && r.headerHeight == s.headerHeight
              && r.current == s.current && r.shown == s.shown && r.pages == s.pages
    ensures s.hasTabsConstraint && h >= 0.0 && s.current.None? ==>
              r.sources == s.sources && r.ignoreOffsetChanged == s.ignoreOffsetChanged
    ensures s.hasTabsConstraint && h >= 0.0 && s.current.Some? ==>
              var p := s.current.value;
              var diff := h - s.tabsHeight;
              && !r.ignoreOffsetChanged
              && Get(r.sources, p).inset.top == Get(s.sources, p).inset.top + diff
              && Get(r.sources, p).offsetY == Get(s.sources, p).offsetY - diff
              && Get(r.sources, p).contentHeight >= s.boundsHeight - s.minimumHeaderHeight - h
              && (forall q :: !SameSurface(p, q) ==> Get(r.sources, q) == Get(s.sources, q))
  {
    if !s.hasTabsConstraint || h < 0.0 then s
    else
      var diff := h - s.tabsHeight;
      var s1 := s.(tabsHeight := h, originalTopInset := s.originalTopInset + diff);
      match s.current
      case None => s1
      case Some(page) =>
        var sc := Get(s1.sources, page);
        var sc1 := UpdateTopInset(sc, diff).(offsetY := sc.offsetY - diff);
        var sc2 := ApplyMinimumContentHeight(sc1, s.boundsHeight, s.minimumHeaderHeight, h);
        s1.(sources := Set(s1.sources, page, sc2), ignoreOffsetChanged := false)
  }

  /** The expected inset keeps tracking header plus strip: both setters
      move it by exactly the change they make. */
  lemma SettersKeepInsetBalance(s: Pager, h: real)
    ensures var r := SetHeaderHeight(s, h);
            r.originalTopInset - r.headerHeight - r.tabsHeight == s.originalTopInset - s.headerHeight - s.tabsHeight
    ensures var r := SetTabsHeight(s, h);
            r.originalTopInset - r.headerHeight - r.tabsHeight == s.originalTopInset - s.headerHeight - s.tabsHeight
  {
  }

  /** An example: growing the strip from 50 to 100 moves the
      displayed page's top inset down by 50 and its offset up by 50 while
      the header stays at 200. */
  lemma SetTabsHeightScenario(s: Pager)
    requires s.hasTabsConstraint && s.tabsHeight == 50.0 && s.constant == 200.0 && s.current.Some?
    ensures var r := SetTabsHeight(s, 100.0);
            var p := s.current.value;
            && r.constant == 200.0
            && Get(r.sources, p).inset.top == Get(s.sources, p).inset.top + 50.0
            && Get(r.sources, p).offsetY == Get(s.sources, p).offsetY - 50.0
  {
  }

  /** Puts `page` into the view hierarchy: resets the internal scroll view's
      inset, adds the expected top inset to the page's scroll view, sizes the
      scroll views and, the first time the page is shown, scrolls it to the
      top of the header. */
  function LayoutChild(s: Pager, page: Page): (r: Pager)
    ensures r.shown == s.shown + {page}
    ensures r.originalTopInset == Max(s.constant, s.headerHeight) + s.tabsHeight
    ensures r.originalTopInset >= s.headerHeight + s.tabsHeight
    ensures page !in s.shown || !page.ownsScroll ==>
              Get(r.sources, page).offsetX == 0.0 && Get(r.sources, page).offsetY == -s.headerHeight - s.tabsHeight
    ensures page in s.shown && page.ownsScroll ==>
              Get(r.sources, page).offsetX == Get(s.sources, page).offsetX &&
              Get(r.sources, page).offsetY == Get(s.sources, page).offsetY
    ensures page.ownsScroll ==> Get(r.sources, page).inset.top == Get(s.sources, page).inset.top + r.originalTopInset
    ensures !page.ownsScroll ==> Get(r.sources, page).inset == Insets(r.originalTopInset, 0.0, 0.0, 0.0)
    ensures Get(r.sources, page).contentHeight >= s.boundsHeight - s.minimumHeaderHeight - s.tabsHeight
    ensures forall q: Page :: q.ownsScroll && q != page ==> Get(r.sources, q) == Get(s.sources, q)
    ensures r == s.(originalTopInset := r.originalTopInset, sources := r.sources, shown := r.shown)
  {
    var src0 := s.sources.(internal := s.sources.internal.(inset := ZeroInsets));
    var top := Max(s.constant, s.headerHeight) + s.tabsHeight;
    var src1 := Set(src0, page, UpdateTopInset(Get(src0, page), top));
    // sizing of the internal scroll view
    var internal := src1.internal.(contentWidth := s.boundsWidth, contentHeight := s.boundsHeight);
    var internal' :=
      if page.ownsScroll then internal
      else internal.(offsetX := 0.0, offsetY := -s.headerHeight - s.tabsHeight);
    var src2 := src1.(internal := internal');
    var src3 := Set(src2, page, ApplyMinimumContentHeight(Get(src2, page), s.boundsHeight, s.minimumHeaderHeight, s.tabsHeight));
    // first display
    var src4 :=
      if page in s.shown then src3
      else Set(src3, page, Get(src3, page).(offsetX := 0.0, offsetY := -s.headerHeight - s.tabsHeight));
    s.(originalTopInset := top, sources := src4, shown := s.shown + {page})
  }

  /** Lays out and observes the first page, which becomes the displayed one. */
  function LayoutContentViewControllers(s: Pager): (r: Pager)
    ensures s.pages == [] ==> r == s
    ensures s.pages != [] ==>
              && r.current == Some(s.pages[0]) && r.observing == Some(s.pages[0])
              && r.shown == s.shown + {s.pages[0]}
              && r.constant == s.constant && r.headerHeight == s.headerHeight && r.pages == s.pages
  {
    if s.pages == [] then s
    else
      var first := s.pages[0];
      LayoutChild(s, first).(observing := Some(first), current := Some(first))
  }

  /** The view as built by its initialisers: the header at full height,
      the strip height taken from the strip if there is one, and the first
      page displayed. */
  function Init(headerHeight: real, minimumHeaderHeight: real, scaleOnBounce: bool, strip: Option<real>,
                pages: seq<Page>, own: map<Page, Scroll>, boundsWidth: real, boundsHeight: real): (r: Pager)
    ensures r.constant == r.headerHeight == headerHeight
    ensures r.tabsHeight == OrElse(strip, 0.0) && r.hasTabsConstraint == strip.Some?
    ensures !r.ignoreOffsetChanged && r.pages == pages
    ensures pages == [] ==> r.current.None? && r.observing.None? && r.shown == {}
    ensures pages != [] ==>
              && r.current == Some(pages[0]) && r.observing == Some(pages[0]) && r.shown == {pages[0]}
              && Get(r.sources, pages[0]).offsetY == -headerHeight - OrElse(strip, 0.0)
  {
    var s := Pager(headerHeight, minimumHeaderHeight, scaleOnBounce, OrElse(strip, 0.0), strip.Some?,
                   headerHeight, 0.0, false, pages, None, {}, Sources(FreshScroll, own), None,
                   boundsWidth, boundsHeight);
    LayoutContentViewControllers(s)
  }

  /** The first layout is settled: the first page's top inset is exactly
      the expected one, so an inset event reporting it leaves offset events
      enabled, and the page sits at the fully expanded position, where the
      exposed gap is the full header. A page's own scroll view is expected to
      arrive without a top inset, since the layout adds to it. */
  lemma InitIsSettled(headerHeight: real, minimumHeaderHeight: real, scaleOnBounce: bool, strip: Option<real>,
                      pages: seq<Page>, own: map<Page, Scroll>, boundsWidth: real, boundsHeight: real)
    requires pages != []
    requires Get(Sources(FreshScroll, own), pages[0]).inset.top == 0.0
    ensures var r := Init(headerHeight, minimumHeaderHeight, scaleOnBounce, strip, pages, own, boundsWidth, boundsHeight);
            var sc := Get(r.sources, pages[0]);
            && sc.inset.top == r.originalTopInset
            && !OnInsetChanged(r, Some(sc.inset)).ignoreOffsetChanged
            && HeaderStep.Gap(Cfg(r), sc.offsetY) == headerHeight
  {
  }

  /** What a switch did besides changing the state. */
  datatype Switch = Switch(state: Pager, notes: seq<Note>, slide: Option<Slide>)

  /** The synchronous part of switching to page `index`: stop observing,
      lay out the incoming page off-screen, snap its offset to the current
      header, and observe it. */
  function Begin(s: Pager, index: int, previous: int): (r: (Pager, Slide))
    requires 0 <= index < |s.pages|
    ensures r.0.observing == Some(s.pages[index])
    ensures r.0.shown == s.shown + {s.pages[index]}
    ensures r.1 == SlideFor(index, previous, s.boundsWidth)
    ensures var y := Get(LayoutChild(s, s.pages[index]).sources, s.pages[index]).offsetY;
            Get(r.0.sources, s.pages[index]).offsetY == if HeaderStep.InSnapWindow(Cfg(s), y) then -s.tabsHeight - s.constant else y
    // the incoming page is as laid out, with at most its offset snapped to
    // the left edge at the current header
    ensures var laid := Get(LayoutChild(s, s.pages[index]).sources, s.pages[index]);
            var sc := Get(r.0.sources, s.pages[index]);
            sc == laid || sc == laid.(offsetX := 0.0, offsetY := -s.tabsHeight - s.constant)
    // every other scroll view is as the layout leaves it
    ensures forall q :: !SameSurface(s.pages[index], q) ==>
              Get(r.0.sources, q) == Get(LayoutChild(s, s.pages[index]).sources, q)
    ensures r.0 == LayoutChild(s, s.pages[index]).(sources := r.0.sources, observing := r.0.observing)
  {
    var page := s.pages[index];
    var s1 := LayoutChild(s.(observing := None), page);
    var slide := SlideFor(index, previous, s.boundsWidth);
    var sc := Get(s1.sources, page);
    var sc' := if HeaderStep.InSnapWindow(Cfg(s), sc.offsetY) then sc.(offsetX := 0.0, offsetY := -s.tabsHeight - s.constant) else sc;
    (s1.(sources := Set(s1.sources, page, sc'), observing := Some(page)), slide)
  }

  /** The animation completion of a switch: the outgoing page gives back the
      expected top inset, the incoming page becomes the displayed one, the
      delegate hears of it and then the completion handler runs. */
  function Complete(s: Pager, page: Page, index: int, previous: int, completion: bool): (r: Reaction)
    ensures r.state.current == Some(page)
    ensures r.notes == [DidSelect(index, previous)] + (if completion then [Completed] else [])
    ensures s.current.Some? && s.current.value.ownsScroll && !SameSurface(s.current.value, page) ==>
              Get(r.state.sources, s.current.value) == UpdateTopInset(Get(s.sources, s.current.value), -s.originalTopInset)
    // the incoming page's content is made tall enough to collapse the header
    ensures !(s.current == Some(page) && page.ownsScroll) ==>
              Get(r.state.sources, page) ==
                ApplyMinimumContentHeight(Get(s.sources, page), s.boundsHeight, s.minimumHeaderHeight, s.tabsHeight)
    ensures Get(r.state.sources, page).contentHeight >= s.boundsHeight - s.minimumHeaderHeight - s.tabsHeight
    // no other scroll view changes
    ensures forall q :: !SameSurface(page, q) && (Some(q) != s.current || !q.ownsScroll) ==>
              Get(r.state.sources, q) == Get(s.sources, q)
    ensures r.state == s.(sources := r.state.sources, current := Some(page))
  {
    var src :=
      match s.current
      case Some(outgoing) =>
        if outgoing.ownsScroll then Set(s.sources, outgoing, UpdateTopInset(Get(s.sources, outgoing), -s.originalTopInset))
        else s.sources
      case None => s.sources;
    var src' := Set(src, page, ApplyMinimumContentHeight(Get(src, page), s.boundsHeight, s.minimumHeaderHeight, s.tabsHeight));
    Reaction(s.(sources := src', current := Some(page)), [DidSelect(index, previous)] + (if completion then [Completed] else []))
  }

  /** Tab activation. Out-of-range indices change nothing; re-selecting the
      displayed page only tells the delegate; a switch with no displayed
      page traps on the forced unwrap; any other switch runs to completion. */
  function Activate(s: Pager, index: int, previous: int, completion: bool): (r: Outcome<Switch>)
    ensures !(0 <= index < |s.pages|) ==> r == Done(Switch(s, [], None))
    ensures 0 <= index < |s.pages| && s.current == Some(s.pages[index]) ==>
              r == Done(Switch(s, [DidSelect(index, previous)], None))
    ensures 0 <= index < |s.pages| && s.current.None? ==> r.Trapped?
    ensures 0 <= index < |s.pages| && s.current.Some? && s.current != Some(s.pages[index]) ==>
              && r.Done?
              && r.value.state.current == Some(s.pages[index])
              && r.value.state.observing == Some(s.pages[index])
              && r.value.state.shown == s.shown + {s.pages[index]}
              && r.value.notes == [DidSelect(index, previous)] + (if completion then [Completed] else [])
              && r.value.slide == Some(SlideFor(index, previous, s.boundsWidth))
              && r.value.state.originalTopInset == Max(s.constant, s.headerHeight) + s.tabsHeight
              && r.value.state.constant == s.constant && r.value.state.headerHeight == s.headerHeight
              && r.value.state.ignoreOffsetChanged == s.ignoreOffsetChanged
  {
    if !(0 <= index < |s.pages|) then Done(Switch(s, [], None))
    else if s.current == Some(s.pages[index]) then Done(Switch(s, [DidSelect(index, previous)], None))
    else if s.current.None? then Trapped
    else
      var (s1, slide) := Begin(s, index, previous);
      var done := Complete(s1, s.pages[index], index, previous, completion);
      Done(Switch(done.state, done.notes, Some(slide)))
  }

  /** First show versus later shows: a page shown for the first time ends
      the switch snapped to the current header (it is first scrolled to the
      top of the full header, which lies in the snap window); a page shown
      before keeps its own offset unless that offset lies in the window. */
  lemma ActivateOffsets(s: Pager, index: int, previous: int, completion: bool)
    requires 0 <= index < |s.pages| && s.current.Some? && s.current != Some(s.pages[index])
    requires s.headerHeight >= 0.0
    ensures var page := s.pages[index];
            var r := Activate(s, index, previous, completion);
            && r.Done?
            && (page !in s.shown ==> Get(r.value.state.sources, page).offsetY == -s.tabsHeight - s.constant)
            && (page in s.shown && page.ownsScroll ==>
                  var y := Get(s.sources, page).offsetY;
                  Get(r.value.state.sources, page).offsetY == if HeaderStep.InSnapWindow(Cfg(s), y) then -s.tabsHeight - s.constant else y)
  {
  }

  /** A switch never puts a page back into the never-shown state. */
  lemma ShownOnlyGrows(s: Pager, index: int, previous: int, completion: bool)
    requires Activate(s, index, previous, completion).Done?
    ensures s.shown <= Activate(s, index, previous, completion).value.state.shown
  {
  }

  /** The pager together with its tab strip. */
  datatype Session = Session(pager: Pager, strip: TabsView.Strip, notes: seq<Note>)

  /** The strip's selection-change callback: the pager activates the new
      index, animated, without a completion handler. */
  function OnTabsChanged(s: Pager, strip: TabsView.Strip, calls: seq<(int, int)>): (r: Outcome<Session>)
    ensures calls == [] ==> r == Done(Session(s, strip, []))
    ensures |calls| == 1 && Activate(s, calls[0].0, calls[0].1, false).Done? ==>
              r == Done(Session(Activate(s, calls[0].0, calls[0].1, false).value.state, strip,
                                Activate(s, calls[0].0, calls[0].1, false).value.notes))
    ensures |calls| == 1 && Activate(s, calls[0].0, calls[0].1, false).Trapped? ==> r.Trapped?
    decreases |calls|
  {
    if calls == [] then Done(Session(s, strip, []))
    else
      match Activate(s, calls[0].0, calls[0].1, false)
      case Trapped => Trapped
      case Done(sw) =>
        if |calls| == 1 then Done(Session(sw.state, strip, sw.notes))
        else
          match OnTabsChanged(sw.state, strip, calls[1..])
          case Trapped => Trapped
          case Done(rest) => Done(Session(rest.pager, strip, sw.notes + rest.notes))
  }

  /** A horizontal swipe over the pager: the strip selects the neighbouring
      tab when it exists and the pager follows through the callback. */
  function Swipe(s: Pager, strip: TabsView.Strip, dir: SwipeDirection, scrollCenterX: real): (r: Outcome<Session>)
    requires TabsView.Valid(strip)
    ensures TabsView.SwipeTarget(dir, strip.selectedIndex, |strip.widths|).None? ==> r == Done(Session(s, strip, []))
    ensures TabsView.SwipeTarget(dir, strip.selectedIndex, |strip.widths|).Some? ==>
              var t := TabsView.SwipeTarget(dir, strip.selectedIndex, |strip.widths|).value;
              var a := Activate(s, t, strip.selectedIndex, false);
              && (r.Trapped? <==> a.Trapped?)
              && (a.Done? ==>
                    && r.value.strip == TabsView.Swipe(strip, dir, scrollCenterX).strip
                    && r.value.strip.selectedIndex == t && r.value.pager == a.value.state && r.value.notes == a.value.notes)
  {
    var clicked := TabsView.Swipe(strip, dir, scrollCenterX);
    OnTabsChanged(s, clicked.strip, clicked.calls)
  }

  /** A left swipe and then a right swipe, with the strip and the pager in
      step, come back to the page displayed before; the delegate hears of
      both selections. */
  lemma SwipeThereAndBack(s: Pager, strip: TabsView.Strip, x1: real, x2: real)
    requires TabsView.SingleSelected(strip) && 0 <= strip.selectedIndex && strip.selectedIndex + 1 < |strip.widths|
    requires |strip.widths| == |s.pages| && s.current == Some(s.pages[strip.selectedIndex])
    ensures var i := strip.selectedIndex;
            var there := Swipe(s, strip, Left, x1);
            there.Done? && TabsView.Valid(there.value.strip) &&
            var back := Swipe(there.value.pager, there.value.strip, Right, x2);
            && back.Done?
            && back.value.strip.selectedIndex == i && back.value.strip.selected == strip.selected
            && back.value.pager.current == s.current
            && there.value.notes + back.value.notes == [DidSelect(i + 1, i), DidSelect(i, i + 1)]
  {
    var i := strip.selectedIndex;
    TabsView.SwipeThereAndBack(strip, x1, x2);
    assert TabsView.SwipeTarget(Left, i, |strip.widths|) == Some(i + 1);
    SwipeToNeighbour(s, strip, Left, x1);
    var there := Swipe(s, strip, Left, x1);
    assert TabsView.SwipeTarget(Right, i + 1, |strip.widths|) == Some(i);
    SwipeToNeighbour(there.value.pager, there.value.strip, Right, x2);
  }

  /** A swipe with a target, with the strip and the pager in step, displays
      the target page, keeps them in step and tells the delegate once. */
  lemma SwipeToNeighbour(s: Pager, strip: TabsView.Strip, dir: SwipeDirection, x: real)
    requires TabsView.SingleSelected(strip) && |strip.widths| == |s.pages| && s.current.Some?
    requires TabsView.SwipeTarget(dir, strip.selectedIndex, |strip.widths|).Some?
    ensures var t := TabsView.SwipeTarget(dir, strip.selectedIndex, |strip.widths|).value;
            var r := Swipe(s, strip, dir, x);
            && r.Done? && r.value.pager.current == Some(s.pages[t]) && r.value.pager.pages == s.pages
            && r.value.strip == TabsView.Swipe(strip, dir, x).strip && TabsView.SingleSelected(r.value.strip)
            && r.value.strip.selectedIndex == t
            && r.value.notes == [DidSelect(t, strip.selectedIndex)]
  {
    var t := TabsView.SwipeTarget(dir, strip.selectedIndex, |strip.widths|).value;
    var a := Activate(s, t, strip.selectedIndex, false);
    assert a.Done? && a.value.state.current == Some(s.pages[t]) && a.value.state.pages == s.pages;
    TabsView.ClickKeepsSingleSelected(strip, t, x);
  }

  /** Re-initialisation with a new page list and strip: the strip height is
      taken over and page 0 is activated as if coming from index -1. An
      empty page list activates nothing and never runs the completion. */
  function SetupPager(s: Pager, pages: seq<Page>, stripHeight: real, completion: bool): (r: Outcome<Switch>)
    ensures pages == [] ==> r.Done? && r.value.notes == [] && r.value.state.pages == [] && r.value.state.current == s.current
    ensures pages != [] && s.current.None? ==> r.Trapped?
    ensures pages != [] && s.current == Some(pages[0]) ==> r.Done? && r.value.notes == [DidSelect(0, -1)]
    ensures pages != [] && s.current.Some? && s.current != Some(pages[0]) ==>
              && r.Done?
              && r.value.state.current == Some(pages[0])
              && r.value.state.tabsHeight == stripHeight
              && r.value.slide == Some(SlideFor(0, -1, s.boundsWidth))
              && r.value.slide.value.incomingStart == s.boundsWidth
              && (completion ==> r.value.notes == [DidSelect(0, -1), Completed])
  {
    var s1 := s.(tabsHeight := stripHeight, hasTabsConstraint := true, pages := pages);
    Activate(s1, 0, -1, completion)
  }

  /** Setting up the same pages and strip again changes nothing: the first
      page is already displayed, so the delegate only hears of it again. */
  lemma SetupPagerAgain(s: Pager, pages: seq<Page>, stripHeight: real, c1: bool, c2: bool)
    requires SetupPager(s, pages, stripHeight, c1).Done?
    ensures var first := SetupPager(s, pages, stripHeight, c1).value.state;
            SetupPager(first, pages, stripHeight, c2) ==
              Done(Switch(first, if pages == [] then [] else [DidSelect(0, -1)], None))
  {
  }
}

=== FILE: scroll_source.dfy ===
/** The scrollable surface a page exposes: its offset, edge insets and
    content size, and the pager's bookkeeping of which surface belongs to
    which page. A page that exposes no scroll view of its own is shown inside
    the pager's internal scroll view, so all such pages share one surface. */
module ScrollSource {
  import opened Common

  datatype Insets = Insets(top: real, left: real, bottom: real, right: real)

  const ZeroInsets := Insets(0.0, 0.0, 0.0, 0.0)

  datatype Scroll = Scroll(
    offsetX: real,
    offsetY: real,
    inset: Insets,
    contentWidth: real,
    contentHeight: real)

  /** A scroll view nobody has configured yet. */
  const FreshScroll := Scroll(0.0, 0.0, ZeroInsets, 0.0, 0.0)

  /** A content page; pages are compared by identity, here by value.
      `ownsScroll` says whether the page exposes a scroll view of its own. */
  datatype Page = Page(id: nat, ownsScroll: bool)

  /** The pager's internal scroll view and the pages' own scroll views. */
  datatype Sources = Sources(internal: Scroll, own: map<Page, Scroll>)

  /** True when `p` and `q` are shown through the same scroll view. */
  predicate SameSurface(p: Page, q: Page)
  {
    if p.ownsScroll then p == q else !q.ownsScroll
  }

  /** The scroll view the pager manages for page `p`. */
  function Get(src: Sources, p: Page): (r: Scroll)
    ensures !p.ownsScroll ==> r == src.internal
  {
    if !p.ownsScroll then src.internal
    else if p in src.own then src.own[p]
    else FreshScroll
  }

  /** Replaces the scroll view state of page `p`; every surface not shared
      with `p` keeps its state. */
  function Set(src: Sources, p: Page, sc: Scroll): (r: Sources)
    ensures Get(r, p) == sc
    ensures forall q :: !SameSurface(p, q) ==> Get(r, q) == Get(src, q)
  {
    if !p.ownsScroll then src.(internal := sc)
    else src.(own := src.own[p := sc])
  }

  /** Moves the top content inset by `delta`, keeping the offset. */
  function UpdateTopInset(sc: Scroll, delta: real): (r: Scroll)
    ensures r.inset.top - sc.inset.top == delta
    ensures r.inset.(top := sc.inset.top) == sc.inset
    ensures r.(inset := sc.inset) == sc
  {
    sc.(inset := sc.inset.(top := sc.inset.top + delta))
  }

  /** Undoing an inset update restores the scroll view exactly; the pager
      relies on this when it takes back the inset it added to a page. */
  lemma UpdateTopInsetInverse(sc: Scroll, delta: real)
    ensures UpdateTopInset(UpdateTopInset(sc, delta), -delta) == sc
  {
  }

  /** Grows the content height to what fills the area below a collapsed
      header and the tab strip; never shrinks it. */
  function ApplyMinimumContentHeight(sc: Scroll, boundsHeight: real, minimumHeader: real, tabsHeight: real): (r: Scroll)
    ensures r.contentHeight >= sc.contentHeight
    ensures r.contentHeight >= boundsHeight - minimumHeader - tabsHeight
    ensures r.contentHeight == sc.contentHeight || r.contentHeight == boundsHeight - minimumHeader - tabsHeight
    ensures r.(contentHeight := sc.contentHeight) == sc
  {
    var minimumContentHeight := boundsHeight - minimumHeader - tabsHeight;
    if sc.contentHeight < minimumContentHeight then sc.(contentHeight := minimumContentHeight) else sc
  }

  /** Applying the minimum content height twice is applying it once. */
  lemma ApplyMinimumContentHeightIdempotent(sc: Scroll, boundsHeight: real, minimumHeader: real, tabsHeight: real)
    ensures var once := ApplyMinimumContentHeight(sc, boundsHeight, minimumHeader, tabsHeight);
            ApplyMinimumContentHeight(once, boundsHeight, minimumHeader, tabsHeight) == once
  {
  }
}

=== FILE: tabs_view.dfy ===
/** The tab strip: tabs laid out left to right with a fixed padding, one
    selected tab marked and underlined by the selection indicator, and the
    strip scrolled so that the selected tab is centred where possible.
    A tab is represented by its width alone; titles, fonts and colours only
    decide that width. */
module TabsView {
  import opened Common

  datatype Rect = Rect(x: real, y: real, width: real, height: real)

  /** What the strip is built from: tab widths in title order, the padding
      between and around tabs, the strip height, whether a narrow strip is
      centred, and the height of the selection indicator. */
  datatype Config = Config(widths: seq<real>, padding: real, height: real, centered: bool, indicatorHeight: real)

  datatype Strip = Strip(
    widths: seq<real>,       // tab widths
    origins: seq<real>,      // tab x origins inside the scroll view
    padding: real,
    height: real,            // height of every tab
    indicatorHeight: real,
    contentWidth: real,      // scroll view content width
    scrollWidth: real,       // scroll view width
    selectedIndex: int,
    selected: seq<bool>,     // the selected mark of every tab
    offsetX: real,           // scroll view horizontal offset
    indicator: Option<Rect>) // selection indicator frame, once laid out

  /** One origin and one selected mark per tab. */
  predicate Valid(s: Strip)
  {
    |s.origins| == |s.widths| && |s.selected| == |s.widths|
  }

  /** Exactly the tab at `selectedIndex` carries the selected mark. */
  predicate SingleSelected(s: Strip)
  {
    Valid(s) && forall i :: 0 <= i < |s.selected| ==> (s.selected[i] <==> i == s.selectedIndex)
  }

  /** Sum of `width + padding` over the tabs `ws`. */
  function Span(ws: seq<real>, padding: real): real
    decreases |ws|
  {
    if ws == [] then 0.0 else Span(ws[..|ws| - 1], padding) + ws[|ws| - 1] + padding
  }

  /** Where tab `i` starts: the leading padding plus the width and trailing
      padding of every tab before it. For `i == |ws|` this is the width of
      the whole content. */
  function TabOrigin(ws: seq<real>, padding: real, i: int): real
    requires 0 <= i <= |ws|
  {
    padding + Span(ws[..i], padding)
  }

  /** The next tab starts one width and one padding after the previous. */
  lemma TabOriginStep(ws: seq<real>, padding: real, i: int)
    requires 0 <= i < |ws|
    ensures TabOrigin(ws, padding, i + 1) == TabOrigin(ws, padding, i) + ws[i] + padding
  {
    assert ws[..i + 1][..i] == ws[..i];
  }

  /** Every tab and the padding have a non-negative width. */
  predicate NonNegativeWidths(ws: seq<real>, padding: real)
  {
    padding >= 0.0 && forall i :: 0 <= i < |ws| ==> ws[i] >= 0.0
  }

  /** With non-negative widths, tabs further right start further right. */
  lemma {:induction false} TabOriginMonotone(ws: seq<real>, padding: real, i: int, j: int)
    requires NonNegativeWidths(ws, padding)
    requires 0 <= i <= j <= |ws|
    ensures TabOrigin(ws, padding, i) <= TabOrigin(ws, padding, j)
    decreases j - i
  {
    if i < j {
      TabOriginStep(ws, padding, i);
      TabOriginMonotone(ws, padding, i + 1, j);
    }
  }

  /** The tabs sit where the strip builder puts them: tab `i` at its origin
      and the content ending where a next tab would start. */
  predicate LaidOut(s: Strip)
  {
    && Valid(s)
    && (forall i :: 0 <= i < |s.widths| ==> s.origins[i] == TabOrigin(s.widths, s.padding, i))
    && s.contentWidth == TabOrigin(s.widths, s.padding, |s.widths|)
  }

  /** True when the strip is narrowed to its content: the content is
      narrower than the scroll view and centring is asked for. */
  predicate Narrows(contentWidth: real, frameWidth: real, centered: bool)
  {
    contentWidth < frameWidth && centered
  }

  /** Builds the strip for `cfg` in a scroll view `frameWidth` wide. Building
      a narrowed strip lays out the selection indicator at once, which traps
      when there are no tabs. */
  method CreateTabs(cfg: Config, frameWidth: real) returns (r: Outcome<Strip>)
    ensures r.Trapped? <==> cfg.widths == [] && Narrows(cfg.padding, frameWidth, cfg.centered)
    ensures r.Done? ==> SingleSelected(r.value) && CurrentSelectedIndex(r.value) == 0
    ensures r.Done? ==> NumberOfTabs(r.value) == |cfg.widths|
    ensures r.Done? ==> r.value.widths == cfg.widths && r.value.padding == cfg.padding
    ensures r.Done? ==> forall i :: 0 <= i < |cfg.widths| ==> r.value.origins[i] == TabOrigin(cfg.widths, cfg.padding, i)
    ensures r.Done? ==> r.value.contentWidth == TabOrigin(cfg.widths, cfg.padding, |cfg.widths|)
    ensures r.Done? ==>
              (r.value.scrollWidth ==
               if Narrows(r.value.contentWidth, frameWidth, cfg.centered) then r.value.contentWidth else frameWidth)
    ensures r.Done? ==> r.value.offsetX == 0.0 && LaidOut(r.value)
    ensures r.Done? ==> (r.value.indicator.Some? <==> Narrows(r.value.contentWidth, frameWidth, cfg.centered))
  {
    var x := cfg.padding;
    var origins: seq<real> := [];
    var selected: seq<bool> := [];
    var i := 0;
    while i < |cfg.widths|
      invariant 0 <= i <= |cfg.widths|
      invariant |origins| == i && |selected| == i
      invariant x == TabOrigin(cfg.widths, cfg.padding, i)
      invariant forall j :: 0 <= j < i ==> origins[j] == TabOrigin(cfg.widths, cfg.padding, j)
      invariant forall j :: 0 <= j < i ==> (selected[j] <==> j == 0)
    {
      origins := origins + [x];
      selected := selected + [i == 0];
      TabOriginStep(cfg.widths, cfg.padding, i);
      x := x + cfg.widths[i] + cfg.padding;
      i := i + 1;
    }
    var narrowed := Narrows(x, frameWidth, cfg.centered);
    var strip := Strip(cfg.widths, origins, cfg.padding, cfg.height, cfg.indicatorHeight,
                       x, if narrowed then x else frameWidth, 0, selected, 0.0, None);
    if !narrowed {
      r := Done(strip);
    } else if cfg.widths == [] {
      r := Trapped;
    } else {
      r := Done(UpdateSelectionIndicator(strip));
    }
  }

  /** Adjacent tabs are separated by exactly the padding, and the content
      ends one padding after the last tab. */
  lemma TabsDoNotOverlap(ws: seq<real>, padding: real)
    ensures forall i :: 0 <= i < |ws| ==>
              TabOrigin(ws, padding, i + 1) - (TabOrigin(ws, padding, i) + ws[i]) == padding
  {
    forall i | 0 <= i < |ws|
      ensures TabOrigin(ws, padding, i + 1) - (TabOrigin(ws, padding, i) + ws[i]) == padding
    {
      TabOriginStep(ws, padding, i);
    }
  }

  /** Moves the selection indicator under the selected tab. */
  function UpdateSelectionIndicator(s: Strip): (r: Strip)
    requires Valid(s) && 0 <= s.selectedIndex < |s.widths|
    ensures r.indicator.Some?
    // spans the selected tab exactly and sits on the bottom edge of the strip
    ensures r.indicator.value.x == s.origins[s.selectedIndex]
    ensures r.indicator.value.x + r.indicator.value.width == s.origins[s.selectedIndex] + s.widths[s.selectedIndex]
    ensures r.indicator.value.y + r.indicator.value.height == s.height
    ensures r.indicator.value.height == s.indicatorHeight
    ensures r.(indicator := s.indicator) == s
  {
    var i := s.selectedIndex;
    s.(indicator := Some(Rect(s.origins[i], s.height - s.indicatorHeight, s.widths[i], s.indicatorHeight)))
  }

  /** On a laid-out strip the indicator never leaves the content: it starts
      at least one padding from the left edge and ends at least one padding
      before the right edge. */
  lemma IndicatorWithinContent(s: Strip)
    requires LaidOut(s) && NonNegativeWidths(s.widths, s.padding)
    requires 0 <= s.selectedIndex < |s.widths|
    ensures var ind := UpdateSelectionIndicator(s).indicator.value;
            s.padding <= ind.x && ind.x + ind.width + s.padding <= s.contentWidth
  {
    var i := s.selectedIndex;
    assert s.widths[..0] == [];
    TabOriginMonotone(s.widths, s.padding, 0, i);
    TabOriginStep(s.widths, s.padding, i);
    TabOriginMonotone(s.widths, s.padding, i + 1, |s.widths|);
  }

  /** Horizontal centre of tab `i` inside the scroll view. */
  function TabCenter(s: Strip, i: int): real
    requires Valid(s) && 0 <= i < |s.widths|
  {
    s.origins[i] + s.widths[i] / 2.0
  }

  /** Scroll offset that centres a point `desired` to the right of the
      scroll view's centre, clamped to `[0, maxOffset]`. */
  function CenteringOffset(desired: real, maxOffset: real): (r: real)
    ensures r >= 0.0
    ensures maxOffset < 0.0 ==> r == 0.0
    ensures maxOffset >= 0.0 ==> r <= maxOffset
    ensures 0.0 <= desired <= maxOffset ==> r == desired
    ensures desired < 0.0 ==> r == 0.0
  {
    Max(0.0, Min(maxOffset, desired))
  }

  /** The outcome of a tab tap: the new strip and the selection-change
      callbacks raised, each as `(new index, old index)`. */
  datatype Clicked = Clicked(strip: Strip, calls: seq<(int, int)>)

  /** A tap on tab `index`. `scrollCenterX` is the scroll view's centre in
      the strip's coordinates. Tapping the selected tab does nothing;
      otherwise the callback sees the old index before the strip moves on. */
  function Click(s: Strip, index: int, scrollCenterX: real): (r: Clicked)
    requires Valid(s)
    requires index == s.selectedIndex || 0 <= index < |s.widths|
    ensures index == s.selectedIndex ==> r == Clicked(s, [])
    ensures index != s.selectedIndex ==> r.calls == [(index, s.selectedIndex)]
    ensures index != s.selectedIndex ==> r.strip.selectedIndex == index && SingleSelected(r.strip)
    ensures index != s.selectedIndex ==> r.strip.offsetX >= 0.0
    ensures index != s.selectedIndex && s.contentWidth < s.scrollWidth ==> r.strip.offsetX == 0.0
    ensures index != s.selectedIndex && s.contentWidth >= s.scrollWidth ==> r.strip.offsetX <= s.contentWidth - s.scrollWidth
    // the tapped tab is centred in the scroll view when the content allows,
    // otherwise the strip stops at the nearer end
    ensures index != s.selectedIndex ==>
              var d := TabCenter(s, index) - scrollCenterX;
              var m := s.contentWidth - s.scrollWidth;
              && (0.0 <= d <= m ==> r.strip.offsetX == d)
              && (0.0 <= m <= d ==> r.strip.offsetX == m)
              && (d <= 0.0 ==> r.strip.offsetX == 0.0)
    ensures index != s.selectedIndex ==>
              r.strip.indicator.Some? && r.strip.indicator.value.x == s.origins[index] &&
              r.strip.indicator.value.width == s.widths[index]
    ensures r.strip.widths == s.widths && r.strip.origins == s.origins && r.strip.padding == s.padding
    ensures r.strip.contentWidth == s.contentWidth && r.strip.scrollWidth == s.scrollWidth
  {
    if index == s.selectedIndex then Clicked(s, [])
    else
      var previous := s.selectedIndex;
      var maxOffset := s.contentWidth - s.scrollWidth;
      var offset := CenteringOffset(TabCenter(s, index) - scrollCenterX, maxOffset);
      var s1 := UpdateSelectionIndicator(s.(selectedIndex := index, offsetX := offset));
      Clicked(s1.(selected := seq(|s.widths|, j => j == index)), [(index, previous)])
  }

  /** Every tap keeps exactly one tab marked as selected. */
  lemma ClickKeepsSingleSelected(s: Strip, index: int, scrollCenterX: real)
    requires SingleSelected(s)
    requires index == s.selectedIndex || 0 <= index < |s.widths|
    ensures SingleSelected(Click(s, index, scrollCenterX).strip)
  {
  }

  /** Programmatic selection: indices outside the strip are ignored. */
  function SetSelected(s: Strip, index: int, scrollCenterX: real): (r: Clicked)
    requires Valid(s)
    ensures !(0 <= index < |s.widths|) ==> r == Clicked(s, [])
    ensures 0 <= index < |s.widths| && index != s.selectedIndex ==>
              r.strip.selectedIndex == index && r.calls == [(index, s.selectedIndex)]
    ensures index == s.selectedIndex ==> r == Clicked(s, [])
  {
    if !(0 <= index < |s.widths|) then Clicked(s, [])
    else Click(s, index, scrollCenterX)
  }

  /** Selecting another tab and then the previously selected one restores
      the selection, the marks and the indicator's place, and raises the two
      callbacks in turn. */
  lemma SetSelectedAndBack(s: Strip, index: int, x1: real, x2: real)
    requires SingleSelected(s) && 0 <= s.selectedIndex < |s.widths|
    requires 0 <= index < |s.widths| && index != s.selectedIndex
    ensures var first := SetSelected(s, index, x1);
            var back := SetSelected(first.strip, s.selectedIndex, x2);
            && back.strip.selectedIndex == s.selectedIndex
            && back.strip.selected == s.selected
            && back.strip.indicator == UpdateSelectionIndicator(s).indicator
            && first.calls + back.calls == [(index, s.selectedIndex), (s.selectedIndex, index)]
  {
    var first := SetSelected(s, index, x1);
    var back := SetSelected(first.strip, s.selectedIndex, x2);
    assert back.strip.selected == s.selected by {
      forall j | 0 <= j < |s.selected| ensures back.strip.selected[j] == s.selected[j] {
      }
    }
  }

  /** How many tabs the strip reports to the pager: one per tab mark and
      per origin. */
  function NumberOfTabs(s: Strip): (n: nat)
    ensures Valid(s) ==> n == |s.selected| && n == |s.origins|
  {
    |s.widths|
  }

  /** Which tab the strip reports as selected: the one carrying the mark. */
  function CurrentSelectedIndex(s: Strip): (i: int)
    ensures SingleSelected(s) ==> forall j :: 0 <= j < |s.selected| ==> (s.selected[j] <==> j == i)
  {
    s.selectedIndex
  }

  /** The tab a swipe asks for: the next tab on a left swipe, the previous
      one on a right swipe, nothing when that tab does not exist. */
  function SwipeTarget(dir: SwipeDirection, index: int, count: int): (r: Option<int>)
    ensures r.Some? ==> 0 <= r.value < count
    ensures r.Some? <==> (dir == Left && 0 <= index + 1 < count) || (dir == Right && 0 <= index - 1 < count)
    ensures r.Some? && dir == Left ==> r.value == index + 1
    ensures r.Some? && dir == Right ==> r.value == index - 1
  {
    match dir
    case Left => if 0 <= index + 1 < count then Some(index + 1) else None
    case Right => if 0 <= index - 1 < count then Some(index - 1) else None
    case _ => None
  }

  /** A swipe over the pager: selects the neighbouring tab through the
      strip, which raises the selection-change callback. */
  function Swipe(s: Strip, dir: SwipeDirection, scrollCenterX: real): (r: Clicked)
    requires Valid(s)
    ensures SwipeTarget(dir, s.selectedIndex, |s.widths|).None? ==> r == Clicked(s, [])
    ensures SwipeTarget(dir, s.selectedIndex, |s.widths|).Some? ==>
              var t := SwipeTarget(dir, s.selectedIndex, |s.widths|).value;
              r.strip.selectedIndex == t && r.calls == [(t, s.selectedIndex)]
  {
    match SwipeTarget(dir, CurrentSelectedIndex(s), NumberOfTabs(s))
    case None => Clicked(s, [])
    case Some(t) => SetSelected(s, t, scrollCenterX)
  }

  /** A left swipe followed by a right swipe returns to the tab selected
      before, with its marks, and raises the two callbacks in turn. */
  lemma SwipeThereAndBack(s: Strip, x1: real, x2: real)
    requires SingleSelected(s) && 0 <= s.selectedIndex && s.selectedIndex + 1 < |s.widths|
    ensures var there := Swipe(s, Left, x1);
            Valid(there.strip) &&
            var back := Swipe(there.strip, Right, x2);
            && back.strip.selectedIndex == s.selectedIndex
            && back.strip.selected == s.selected
            && there.calls + back.calls == [(s.selectedIndex + 1, s.selectedIndex), (s.selectedIndex, s.selectedIndex + 1)]
  {
    SetSelectedAndBack(s, s.selectedIndex + 1, x1, x2);
  }
}
